=== FILE: README.md ===
# logex: a Dafny model of the log-line-to-metric pipeline

logex tails log files that match a glob and parses every new line with Grok patterns.
It turns each parsed record into updates of Prometheus metrics: counters, gauges,
histograms and summaries. Each metric's label tuples are kept in a bounded, expiring
label cache.

This project models the core of that pipeline in Dafny, as pure functions over
immutable data, and proves properties of it:

- **`Config`** (`config.dfy`): `MetricConfig` and `AppConfig`, with their defaults.
  A Java setter `setX(v)` is the datatype update `c.(x := v)`. A getter after a setter
  therefore returns the value set, and every other field keeps its value.
- **`Paths`** (`paths.dfy`): paths, `getParent`, `getFileName`, and a snapshot of the
  file system. Also the climb to the nearest existing ancestor that starts each scan.
- **`Parser`** (`parser.dfy`): `LogParser`. Its constructor compiles the match format,
  and `parse` turns a match into a field map.
- **`Tailer`** (`tailer.dfy`): `LogTailer`. It covers `handle(line)`, the handler
  calls each line produces and their order, `handle(Exception)` and `stop()`.
- **`TailerManager`** (`tailer_manager.dfy`): `LogTailerManager`. It covers
  `isFileInactive`, the periodic scan `findAndTailFiles`, the periodic
  `cleanupInactiveTailers`, and `register`.
- **`LabelCaches`** (`label_cache.dfy`): `LabelCache`. It is a cache from label tuples
  to metric children, with an optional size bound and an optional idle expiry. It
  notifies a callback for size and expiry removals only.
- **`Actions`** (`actions.dfy`): the label actions (no-op, regex replace, script) and
  the label processor that produces a record's label tuple.
- **`Handlers`** (`handlers.dfy`): `LogHandlerFactory.createHandler` and the gauge,
  histogram, summary and counter handlers' `handle(data)`. It also covers the
  interplay between a handler's label cache and its Prometheus family.
  `HandleAsWritten` is `handle(data)` as the code runs it. `Handle` is the corrected
  call described under "## Findings".
- **`MetricsManager`** (`metrics_manager.dfy`): the `MetricsManager` constructor loop.
  It normalises a null label list, appends the `path` label, builds one handler per
  metric and registers it under the metric's match format.
- **`Pipeline`** (`pipeline.dfy`): one line taken end to end through the handlers the
  metrics manager built. Each handler call is `Handlers.HandleAsWritten`.

The model's parameters stand in for what the core calls but does not define:

- the file system is a snapshot (`FileSystem`);
- the clock is an explicit `nowMillis`;
- the glob matcher, applied to the whole walked path, is `ScanOracles.globMatches`;
- Grok compilation and matching are `Parser.Compiler` and `Parser.Matcher`;
- `replaceAll` is `Actions.ReplaceAll`;
- the JavaScript engine is `Actions.Evaluator`;
- `Double.parseDouble` is `Environment.parseDouble`;
- the Prometheus client's validation of a metric family is `Dependencies.accepts`;
- the client's default histogram buckets are `Dependencies.defaultBuckets`.

The label processor's action lookup is the oracle `Actions.ActionLookup`. It is
constrained only by the choices its callers rely on (`regex_replace`, `NO_OP`).
`LabelProcessor`, `LabelConfig`, `CounterHandler` and `NoOpAction` are modelled only
as far as their tests fix their behaviour. Their models are `Actions.ProcessLabels`,
`Config.LabelConfig`, the counter case of `Handlers.Observe` and `Actions.NoOp`.

Where the code and the design description disagree, the model follows the code:

- **Handler failures are not isolated.** `LogTailer.handle(line)` calls the handlers
  of a matching pattern with a plain `forEach` (LogTailer.java:50-59). The first
  handler that throws ends the line: later handlers and later patterns get nothing.
  What the throwing call already changed stays changed. `Tailer.DispatchFailureAt`,
  `Tailer.NoDeliveryAfterFailure` and `Pipeline.DeliverFailureAt` state this.
- **The regex action can throw.** `RegexReplaceAction` calls `replaceAll` without a
  `try` (RegexReplaceAction.java:28). An invalid pattern, or a replacement that names
  a missing group, throws out of the label processor and the handler. It does not fall
  back to the input. `Actions.RegexReplace` returns a `Failure` for these cases.

Java `int` fields are the subtype `Int32`. The inactivity test subtracts two `long`s,
and `Base.WrapInt64` models that subtraction's wrap-around explicitly.

## Model

| member | source | states |
|---|---|---|
| `Config.NewMetricConfig` | src/main/java/org/logex/exporter/config/MetricConfig.java:23-41 | a new metric configuration has every reference field null and `max_label_sets` and `expiration_seconds` at 0 |
| `Config.NewAppConfig` | src/main/java/org/logex/exporter/config/AppConfig.java:23-39 | a new application configuration has path, patterns and metrics null, port 9090, scan interval 10 s, inactivity timeout 3600 s, and tails from the start |
| `Handlers.DefaultBoundsDisableCache` | src/main/java/org/logex/exporter/metric/LabelCache.java:36-42 | a metric left at the default bounds gets a label cache with no size bound and no expiry |
| `Paths.Parent` | src/main/java/org/logex/exporter/log/LogTailerManager.java:60-67 | the parent exists exactly for paths with more than one element or an absolute path with one element; it is the path minus its last element |
| `Paths.FileName` | src/main/java/org/logex/exporter/log/LogTailerManager.java:69-71 | the file name exists exactly for non-empty paths and is the last element |
| `Paths.NearestExisting` | src/main/java/org/logex/exporter/log/LogTailerManager.java:60-67 | the climb returns an existing path on the parent chain with no existing path below it on the chain, or null when no path on the chain exists |
| `Parser.NewParser` | src/main/java/org/logex/exporter/log/LogParser.java:36-51 | construction fails exactly when compilation fails, with that format; otherwise the parser holds the compiled matcher |
| `Parser.Parse` | src/main/java/org/logex/exporter/log/LogParser.java:53-68 | no match gives the empty map; otherwise the keys are exactly the non-null captures, each mapped to its captured text |
| `Parser.ParseEmptyIff` | src/test/java/org/logex/exporter/log/LogParserTest.java:70-78 | a parse result is empty if and only if the line does not match or every capture is null |
| `Parser.ParseKeysAreCaptureNames` | src/main/java/org/logex/exporter/log/LogParser.java:62-66 | every field of a parse result is a capture name of the pattern |
| `Tailer.Stop` | src/main/java/org/logex/exporter/log/LogTailer.java:67-72 | after `stop()` the tailer is not running and nothing else about it changes |
| `Tailer.OnReadError` | src/main/java/org/logex/exporter/log/LogTailer.java:63-65 | `handle(Exception)` only logs: the tailer comes back exactly as it was |
| `Tailer.WithPath` | src/main/java/org/logex/exporter/log/LogTailer.java:57 | `putIfAbsent("path", …)`: adds `path` only when absent and never changes an existing field |
| `Tailer.PatternDeliveries` | src/main/java/org/logex/exporter/log/LogTailer.java:52-58 | an empty parse result calls no handler; otherwise each handler of the pattern is called once, in list order, with the record plus `path` |
| `Tailer.Deliveries` | src/main/java/org/logex/exporter/log/LogTailer.java:48-60 | over an iteration order that lists every parser exactly once, every call a line makes is for a pattern whose parser gave a non-empty record, to a handler registered for it, with that record, which holds `path` |
| `Tailer.CallsForInclude` | src/main/java/org/logex/exporter/log/LogTailer.java:50-58 | the calls for a list of patterns include every handler of every listed pattern that parses the line, with its record |
| `Tailer.EveryMatchingPatternDelivered` | src/main/java/org/logex/exporter/log/LogTailer.java:50-58 | every parser is tried: for every pattern with a parser that turns the line into a non-empty record, each of its registered handlers receives that record |
| `Tailer.HandlersCalledInListOrder` | src/main/java/org/logex/exporter/log/LogTailer.java:58 | the calls made for one pattern are exactly that pattern's handlers in registration order, once each; a pattern not iterated gets none |
| `Tailer.ForPatternAppend` | src/main/java/org/logex/exporter/log/LogTailer.java:50-59 | selecting one pattern's calls distributes over concatenation of call sequences |
| `Tailer.CallsForPattern` | src/main/java/org/logex/exporter/log/LogTailer.java:50-58 | over a list without repeats, the calls made for a listed pattern are exactly its own deliveries, and an unlisted pattern gets none |
| `Tailer.Dispatch` | src/main/java/org/logex/exporter/log/LogTailer.java:58 | the calls made never outnumber the calls queued, and the line completes exactly when all of them are made |
| `Tailer.DispatchOne` | src/main/java/org/logex/exporter/log/LogTailer.java:58 | a single queued call is made: the state is what it leaves, and the line completes exactly when it returns normally, else fails with its exception |
| `Tailer.NoDeliveryAfterFailure` | src/main/java/org/logex/exporter/log/LogTailer.java:50-59 | no call queued after a throwing call is ever made |
| `Tailer.DispatchAppend` | src/main/java/org/logex/exporter/log/LogTailer.java:50-59 | when every call returns normally, delivering two call sequences equals delivering one after the other |
| `Tailer.DispatchFailureAt` | src/main/java/org/logex/exporter/log/LogTailer.java:50-59 | a failing line failed at call number `delivered`: the calls before it were all made and returned normally, and that call, made on the state they left, threw the reported exception and left the reported state |
| `Tailer.HandleLine` | src/main/java/org/logex/exporter/log/LogTailer.java:48-60 | `handle(line)`, with every parser tried once, completes exactly when all the line's calls return normally; when it fails, the calls before the failing one were all made and returned normally, and the failing call threw the reported exception |
| `TailerManager.NewManager` | src/main/java/org/logex/exporter/log/LogTailerManager.java:42-56 | a new manager has no parsers, handlers or tailers and satisfies the registry invariant |
| `TailerManager.InactiveIffElapsedExceedsTimeout` | src/main/java/org/logex/exporter/log/LogTailerManager.java:49-55 | for non-negative times, a file is inactive if and only if the elapsed time strictly exceeds the timeout in milliseconds; the threshold fits a `long` |
| `TailerManager.DefaultTimeoutBoundary` | src/main/java/org/logex/exporter/config/AppConfig.java:35-36 | with the default one-hour timeout, 3 600 000 ms idle is active and 3 600 001 ms is inactive |
| `TailerManager.FindAndTailFiles` | src/main/java/org/logex/exporter/log/LogTailerManager.java:58-91 | a scan never removes or replaces a tracked tailer; it starts a tailer for exactly the eligible untracked files; with no existing ancestor, or a failed walk, nothing changes |
| `TailerManager.ScanIdempotent` | src/test/java/org/logex/exporter/log/LogTailerManagerTest.java:122-135 | a second scan of an unchanged file system adds nothing |
| `TailerManager.InactiveFileNeverStarted` | src/main/java/org/logex/exporter/log/LogTailerManager.java:73-76 | a file already inactive when scanned is never started |
| `TailerManager.CleanupInactiveTailers` | src/main/java/org/logex/exporter/log/LogTailerManager.java:93-106 | cleanup keeps exactly the active tracked files, untouched, and stops and removes exactly the inactive ones |
| `TailerManager.CleanupPartitionsTracked` | src/test/java/org/logex/exporter/log/LogTailerManagerTest.java:104-119 | kept and stopped paths are disjoint, together are the tracked paths, and their counts add up |
| `TailerManager.CleanupThenScanTracksOnlyActive` | src/main/java/org/logex/exporter/log/LogTailerManager.java:58-106 | after a cleanup and a scan at the same instant, every tracked file is active |
| `TailerManager.Register` | src/main/java/org/logex/exporter/log/LogTailerManager.java:108-112 | register fails exactly when a new format does not compile; it compiles a format once, appends the handler, changes no other format, and keeps the registry invariant |
| `TailerManager.RegisterTwiceSharesParser` | src/main/java/org/logex/exporter/log/LogTailerManager.java:108-112 | two registrations of one format share the first parser and list both handlers in order |
| `LabelCaches.NewLabelCache` | src/main/java/org/logex/exporter/metric/LabelCache.java:31-53 | a size bound exists only for a positive maximum and an expiry only for positive seconds, in milliseconds; the cache starts empty |
| `LabelCaches.CallbackOnlyForExpiryOrSize` | src/main/java/org/logex/exporter/metric/LabelCache.java:47-49 | the callback receives every removed key, in order, when every removal is for expiry or size, and no key when none is |
| `LabelCaches.CallbackKeysOfNotifying` | src/main/java/org/logex/exporter/metric/LabelCache.java:44-50 | the callback receives the key of each expiry or size removal, once and in order, and nothing for any other removal |
| `LabelCaches.CallbackKeyIffNotifyingRemoval` | src/main/java/org/logex/exporter/metric/LabelCache.java:44-50 | a key reaches the callback exactly when an expiry or size removal dropped it |
| `LabelCaches.ExpireIdle` | src/main/java/org/logex/exporter/metric/LabelCache.java:40-42 | the entries left are exactly the live ones, unchanged; the expired keys are the others, once each |
| `LabelCaches.Touch` | src/main/java/org/logex/exporter/metric/LabelCache.java:55-57 | the key is stored with the access time and becomes the most recently used |
| `LabelCaches.TrimToSize` | src/main/java/org/logex/exporter/metric/LabelCache.java:36-38 | after trimming the size bound holds; only least recently used keys are removed, never the most recent one; the others are untouched |
| `LabelCaches.GetOrCreate` | src/main/java/org/logex/exporter/metric/LabelCache.java:55-57 | a null key or a needed null creator fails; a live entry is returned without running the creator, otherwise the creator's value is stored; bounds hold afterwards; other keys are kept or removed, and each removal is reported once |
| `LabelCaches.CreatorUnusedWhenLive` | src/main/java/org/logex/exporter/metric/LabelCache.java:55-57 | a lookup of a live entry is the same whatever the creator would have made |
| `LabelCaches.SecondAccessReturnsFirstValue` | src/test/java/org/logex/exporter/metric/LabelCacheTest.java:36-42 | a second access within the expiry returns the first value and creates nothing |
| `LabelCaches.UnboundedNeverEvicts` | src/main/java/org/logex/exporter/metric/LabelCache.java:36-42 | with neither bound, an access removes nothing and keeps every key already cached |
| `LabelCaches.SizeOneHoldsOnlyLastKey` | src/test/java/org/logex/exporter/metric/LabelCacheTest.java:63-89 | with size bound 1, after an access only the key accessed is cached |
| `LabelCaches.FirstAccessCreates` | src/test/java/org/logex/exporter/metric/LabelCacheTest.java:28-33 | the first access to an empty cache creates the value and reports no removal |
| `LabelCaches.SizeOneEvictsOther` | src/test/java/org/logex/exporter/metric/LabelCacheTest.java:76-84 | with size bound 1, accessing another key removes the cached one and reports it |
| `LabelCaches.AbsentKeyIsCreated` | src/main/java/org/logex/exporter/metric/LabelCache.java:55-57 | a key without an entry is built by the creator |
| `LabelCaches.SizeOneEvictsOlderKey` | src/test/java/org/logex/exporter/metric/LabelCacheTest.java:63-89 | evicted by size, the old key is reported, and a later access to it builds a new value |
| `LabelCaches.IdleEntryExpires` | src/test/java/org/logex/exporter/metric/LabelCacheTest.java:45-60 | an entry idle for the whole expiry is reported and rebuilt on the next access |
| `Actions.NoOp` | src/test/java/org/logex/exporter/metric/NoOpActionTest.java:36-53 | the no-op returns its input, null and "" included |
| `Actions.RegexReplace` | src/main/java/org/logex/exporter/metric/RegexReplaceAction.java:23-31 | a null value, unset regex or replacement, or empty regex returns the input; otherwise the engine's result or its exception; null in exactly when null out |
| `Actions.RegexWithoutMatchKeepsValue` | src/test/java/org/logex/exporter/metric/RegexReplaceActionTest.java:44-49 | a regex that does not occur leaves the value unchanged |
| `Actions.Script` | src/main/java/org/logex/exporter/metric/JavaScriptAction.java:28-46 | no script or an empty one returns the input; an error or a null-like result returns the input; any other result returns its string form |
| `Actions.ScriptResultIsInputOrEngineValue` | src/test/java/org/logex/exporter/metric/JavaScriptActionTest.java:50-71 | the script action returns the input or the engine's value, so a non-null label never becomes null |
| `Actions.Apply` | src/test/java/org/logex/exporter/metric/LabelProcessorTest.java:31-87 | only the regex action can fail; no-op is identity; each action is the one modelled above |
| `Actions.RawValue` | src/test/java/org/logex/exporter/metric/LabelProcessorTest.java:50-65 | a label's raw value is its source field when present, else its default, which may be null |
| `Actions.LabelValue` | src/test/java/org/logex/exporter/metric/LabelProcessorTest.java:90-104 | a label's value is its action's output, with null mapped to ""; it fails exactly when the action fails |
| `Actions.ProcessLabels` | src/test/java/org/logex/exporter/metric/LabelProcessorTest.java:31-104 | one value per label in label order, each the label's value; fails exactly when some label fails, with that label's error |
| `Actions.NoOpLabelTakesField` | src/test/java/org/logex/exporter/metric/LabelProcessorTest.java:31-47 | a no-op label takes its source field's value |
| `Actions.MissingFieldTakesDefault` | src/test/java/org/logex/exporter/metric/LabelProcessorTest.java:50-65 | a missing field gives the default, or "" without one |
| `Actions.RegexLabelRewritesField` | src/test/java/org/logex/exporter/metric/LabelProcessorTest.java:68-87 | a `regex_replace` label takes the engine's rewrite of its field |
| `Handlers.KindOf` | src/main/java/org/logex/exporter/metric/LogHandlerFactory.java:27-32 | exactly the four lower-case type names select a handler kind, each its own |
| `Handlers.KindOfTypeName` | src/main/java/org/logex/exporter/metric/LogHandlerFactory.java:27-35 | each kind is selected by its own name and by no other value |
| `Handlers.Buckets` | src/main/java/org/logex/exporter/metric/HistogramHandler.java:40-42 | custom buckets are used when set and non-empty, the client's defaults otherwise |
| `Handlers.Quantiles` | src/main/java/org/logex/exporter/metric/SummaryHandler.java:40-42 | the configured quantiles when set, none when null |
| `Handlers.SpecOf` | src/main/java/org/logex/exporter/metric/HistogramHandler.java:33-42 | the builder gets the metric's name, help and label names; only a histogram gets buckets and only a summary quantiles |
| `Handlers.CreateHandler` | src/main/java/org/logex/exporter/metric/LogHandlerFactory.java:34-47 | an unknown type fails as unsupported; a known type fails to build exactly when labels are null, the client rejects the family, the name is null, or a sample name the family claims is already claimed; otherwise a fresh handler with the configured cache, and the registry gains exactly the family's sample names |
| `Handlers.DerivedNameCollides` | src/main/java/org/logex/exporter/metric/HistogramHandler.java:34-44 | a histogram `x` claims `x_bucket`, so a later gauge named `x_bucket` fails to build |
| `Handlers.Exposed` | src/main/java/org/logex/exporter/metric/GaugeHandler.java:40-44 | a scrape shows exactly the family's label tuples, each with its child |
| `Handlers.Labels` | src/main/java/org/logex/exporter/metric/GaugeHandler.java:54-55 | `labels(values)` returns the existing child of a tuple, or adds a new child under a fresh identifier |
| `Handlers.RemoveSeries` | src/main/java/org/logex/exporter/metric/GaugeHandler.java:40-44 | the callback's removals drop exactly the listed tuples and keep the children |
| `Handlers.ResolveValue` | src/main/java/org/logex/exporter/metric/GaugeHandler.java:50-53 | the value is 1.0 without a value field or without that field in the record; otherwise the parsed number, or an error for text that does not parse |
| `Handlers.Observe` | src/main/java/org/logex/exporter/metric/HistogramHandler.java:59-61 | a gauge is set; a histogram or summary counts and sums; a histogram bucket counts the value when it is at most the bound; a counter refuses a negative increment |
| `Handlers.HistogramBucketExample` | src/test/java/org/logex/exporter/metric/HistogramHandlerTest.java:128-162 | with bounds 0.1, 0.5 and 1.0, observing 0.2 gives bucket counts 0, 1, 1, count 1 and sum 0.2 |
| `Handlers.Prepare` | src/main/java/org/logex/exporter/metric/GaugeHandler.java:48-53 | the label tuple and value of a record; an error in either ends the call before the cache is used |
| `Handlers.Record` | src/main/java/org/logex/exporter/metric/GaugeHandler.java:54-56 | only the looked-up child changes, by one observation; it fails exactly when the observation fails |
| `Handlers.ConsistentIsTracked` | src/main/java/org/logex/exporter/metric/GaugeHandler.java:31-45 | a handler whose family and cache agree, as every newly built one does, keeps the invariant the as-written call needs |
| `Handlers.HandleAsWritten` | src/main/java/org/logex/exporter/metric/GaugeHandler.java:48-57 | as written: a record that fails to prepare changes nothing; otherwise the tuple ends up cached; it is exposed exactly when it was live and exposed or was not cached at all; the call fails exactly when observing the looked-up child fails, and an exposed tuple shows that observation (or the child unchanged on failure); every other exposed tuple is unchanged, and one exposed before stays exposed exactly when it stays cached |
| `Handlers.ExpiredTupleLostAsWritten` | src/main/java/org/logex/exporter/metric/GaugeHandler.java:54-56 | a gauge labelled by `path`, whose tuple `/f` has expired, handles a line from `/f`: as written the tuple is cached but not exposed, and family and cache disagree; corrected, it is exposed with the new value |
| `Handlers.AsWrittenDiffersOnlyOnExpiry` | src/main/java/org/logex/exporter/metric/GaugeHandler.java:54-56 | on a handler whose family and cache agree, the as-written call leaves the same scrape, cache and exception as the corrected one exactly when the record's tuple does not hit an expired entry |
| `Handlers.Handle` | src/main/java/org/logex/exporter/metric/GaugeHandler.java:48-57 | corrected `handle(data)`, with the removal notices delivered before the supplier: family and cache stay in agreement; the record's tuple is exposed, its child observed, or unchanged on failure; the call fails exactly when the observation fails; every other exposed tuple is unchanged |
| `Handlers.ExposedAreCached` | src/main/java/org/logex/exporter/metric/GaugeHandler.java:40-56 | corrected: after a call the exposed tuples are exactly the cached ones |
| `MetricsManager.WithPathLabel` | src/main/java/org/logex/exporter/metric/MetricsManager.java:49-59 | a `path` label is appended, with source field `path` and action `NO_OP`, only when no label is named `path`; the list is otherwise unchanged |
| `MetricsManager.WithPathLabelIdempotent` | src/main/java/org/logex/exporter/metric/MetricsManager.java:49-59 | adding the path label twice equals adding it once |
| `MetricsManager.PrepareMetric` | src/main/java/org/logex/exporter/metric/MetricsManager.java:44-59 | a null label list becomes empty, then gets the path label; nothing but the labels changes |
| `MetricsManager.PrepareMetricIdempotent` | src/main/java/org/logex/exporter/metric/MetricsManager.java:44-59 | preparing a prepared metric changes nothing |
| `MetricsManager.MakeHandler` | src/main/java/org/logex/exporter/metric/MetricsManager.java:61 | building a metric's handler fails exactly when the factory fails on the prepared metric; success gives a fresh handler for it, with the metric's name, and claims exactly its sample names, none of which was claimed before |
| `MetricsManager.Enlist` | src/main/java/org/logex/exporter/metric/MetricsManager.java:62 | a null match format fails; otherwise registration fails exactly when `register` does, and success appends the handler's position and keeps the registry invariant |
| `MetricsManager.BuildFrom` | src/main/java/org/logex/exporter/metric/MetricsManager.java:42-64 | one fresh handler per metric, in order; the tailer manager's settings and tailers untouched; registry invariant kept |
| `MetricsManager.BuildFromFails` | src/main/java/org/logex/exporter/metric/MetricsManager.java:61-62 | an iteration whose factory call or registration fails ends the loop with that error, and so does a failure in the rest of the loop |
| `MetricsManager.StopsAtFailedHandler` | src/main/java/org/logex/exporter/metric/MetricsManager.java:42-64 | when the metrics before `m` all went through and the factory fails on `m`, the loop fails with that error, whatever follows `m` |
| `MetricsManager.StopsAtFailedRegistration` | src/main/java/org/logex/exporter/metric/MetricsManager.java:42-64 | when the metrics before `m` all went through, its handler is built and its registration fails, the loop fails with that error, whatever follows `m` |
| `MetricsManager.PositionsForMembers` | src/main/java/org/logex/exporter/metric/MetricsManager.java:42-64 | a position is listed for a format exactly when the metric at that position has that match format |
| `MetricsManager.PositionsForAscend` | src/main/java/org/logex/exporter/metric/MetricsManager.java:42-64 | positions are listed in strictly ascending order |
| `MetricsManager.RegisteredInConfigOrder` | src/main/java/org/logex/exporter/metric/MetricsManager.java:42-64 | each format's handler list grows by exactly the positions of its metrics, in configuration order |
| `MetricsManager.Build` | src/main/java/org/logex/exporter/metric/MetricsManager.java:39-65 | null metrics fail; on success there is one handler per metric, each fresh for its prepared configuration and of a supported type with a match format |
| `MetricsManager.BuildFailsAtFirstFailure` | src/main/java/org/logex/exporter/metric/MetricsManager.java:39-65 | the constructor fails with the error of the first metric whose handler cannot be built or registered, whatever metrics follow it |
| `MetricsManager.OneMetricOneRegistration` | src/test/java/org/logex/exporter/metric/MetricsManagerTest.java:45-61 | one metric with match `test_match` registers exactly one handler under `test_match` |
| `Pipeline.DeliverOne` | src/main/java/org/logex/exporter/log/LogTailer.java:58 | one call runs the as-written `handle(data)` on the handler it names: that handler becomes what the call leaves, throwing or not; the call's exception is the one returned; no other handler changes; every handler keeps its invariant |
| `Pipeline.Deliver` | src/main/java/org/logex/exporter/log/LogTailer.java:50-59 | the line's calls go through the tailer's dispatch; it completes exactly when every call returns normally; every handler keeps the as-written invariant |
| `Pipeline.DeliverSingle` | src/main/java/org/logex/exporter/log/LogTailer.java:58 | a line with one call leaves the handlers as that call leaves them, and fails exactly when it throws, with its exception |
| `Pipeline.DeliverAppend` | src/main/java/org/logex/exporter/log/LogTailer.java:50-59 | after a failing batch of calls the next batch is never made, and the handlers keep what the failing call left; otherwise the next batch runs on the handlers the first left |
| `Pipeline.DeliverFailureAt` | src/main/java/org/logex/exporter/log/LogTailer.java:50-59 | a failing line failed at call number `delivered`: the calls before it returned normally, and that handler's as-written `handle` threw the reported exception and left the reported handlers |
| `Pipeline.DeliveriesInRange` | src/main/java/org/logex/exporter/metric/MetricsManager.java:62-63 | every call of a line names a built handler |
| `Pipeline.HandleLineThroughHandlers` | src/main/java/org/logex/exporter/log/LogTailer.java:48-60 | a line through the built handlers, every parser tried once, completes exactly when every call returns normally; when it fails, the calls before returned normally and the failing call threw the reported exception; every handler keeps the as-written invariant |
| `Pipeline.BuiltPositionsInRange` | src/main/java/org/logex/exporter/metric/MetricsManager.java:42-64 | every position the metrics manager registers names a handler it built |
| `Pipeline.BuiltHandlersTracked` | src/main/java/org/logex/exporter/metric/MetricsManager.java:61-63 | every handler the metrics manager builds keeps the invariant the as-written call needs, so lines can be delivered to it |

## Left out

- Tailing itself is not modelled: the commons-io `Tailer` polls the file, follows truncation and rotation, and runs on a thread pool. A tailer is its path, its settings and a running flag. `Tailer.StartTailer` fixes the 500 ms poll delay.
- The scheduler, the executor and the concurrent maps are left out. Each operation is one sequential step. HashMap iteration order in `handle(line)` is an `order` parameter: any order that lists every parser exactly once.
- The Caffeine cache's eviction policy (W-TinyLFU) is left out. The size victim is the least recently used key, which is a modelling choice. An entry counts as expired when it has been idle for at least the expiry time. Removals are made and reported during the access, whereas Caffeine reports them asynchronously.
- Prometheus exposition, the HTTP server (`MetricsManager.start`) and the client's name and bucket validation are left out. The validation is the `accepts` oracle, and the default buckets are a parameter.
- Floating-point arithmetic is left out: observations use `real`.
- `Double.parseDouble`, the Grok engine, Java regex and the JavaScript engine are oracles.
- `LabelProcessor`, `LabelConfig`, `CounterHandler` and `NoOpAction` are modelled only as far as their tests fix their behaviour. Anything their code does beyond what those tests show is not promised.
- `Handlers.Observe` assumes the Prometheus counter's refusal of a negative increment for the counter case.
- `TailerManager.FindAndTailFiles` requires a configured path. With a null path, `Paths.get(null)` throws a `NullPointerException`. The scan catches only `IOException`, so that exception escapes the scheduled task, which this model does not represent.
- Getters and setters of `MetricConfig` and `AppConfig` are not separate members. They are field selection and datatype update, so "get after set returns the value set and nothing else changes" holds by construction.
- `TailerManager.FindAndTailFiles`: `walkFails` stands for the `IOException` of opening the walk, which leaves the tracked set as it was. An error while the walk is already under way surfaces as an unchecked exception after some tailers may have started. That case is not modelled.
- Log output (`LOG.info`, `LOG.error`, `LOG.warn`) is left out.
- What happens after `handle(line)` throws is left out. `LogTailer.run()` hands control to commons-io's `Tailer.run` (LogTailer.java:74-77). An exception escaping a handler (an unparsable value, a bad regex) reaches that loop's outer catch, which reports it through `handle(Exception)` and then closes the tailer. Tailing of that file therefore ends, while `LogTailerManager` still tracks the file until cleanup finds it inactive. `Tailer.OnReadError` states only that the callback logs and changes nothing.
- Handlers.CreateHandler: a family with no label names starts with no series. The Prometheus client creates the child of the empty label tuple when such a collector is built, so it is exposed at 0 before any line. The metrics manager always adds the `path` label, so it never builds such a family. Only a handler built directly with an empty label list, as in the handler tests, differs.
- Handlers.RemoveSeries: removing the empty label tuple from a family with no label names drops it. The client would create its child again at 0. This matters only for the label-less families described above.
- Handlers.Observe: a summary child keeps only its count and sum. The quantile estimators that `observe` updates for the configured quantiles are not modelled, because their approximation algorithm lives in the client library.
- Handlers.CreateHandler: the sample names a family claims are the client's suffixes applied to the configured name as given. The client's normalisation of a counter name that already ends in `_total`, and its checks of name syntax, are not modelled (the syntax checks are the `accepts` oracle).

## Findings

| source | as written | input that shows it | evidently intended | confidence | as-written member | corrected member |
|---|---|---|---|---|---|---|
| src/main/java/org/logex/exporter/metric/GaugeHandler.java:40-56 | the handler's supplier `family.labels(values)` runs inside the cache lookup, while the entry's EXPIRED notice, which calls `family.remove(values)`, is delivered after the lookup. A tuple whose entry expired is therefore cached again, but its series is removed. The same holds in HistogramHandler.java:45-49,57-61 and SummaryHandler.java:45-49,57-61. | a gauge labelled by `path` with `expiration_seconds` 1, whose series for `/f` was last touched at time 0, handling a line from `/f` at 1000 ms | a tuple handled after expiry is exposed again, with a fresh child holding the new observation | not executed | `Handlers.ExpiredTupleLostAsWritten` | `Handlers.Handle` |

The pipeline model (`Pipeline`) keeps to the code as written and calls `Handlers.HandleAsWritten`. `Handlers.Handle` and `Handlers.ExposedAreCached` give the corrected call and its property, and `Handlers.AsWrittenDiffersOnlyOnExpiry` proves that the two calls differ exactly on a record whose tuple hits an expired entry.

=== FILE: actions.dfy ===
/** Label actions and the label processor. A label action maps a (nullable) label
    value to a new one. The regular-expression engine and the script engine are
    oracles supplied by the caller. The label processor is modelled only as far as
    its tests fix its behaviour: `ProcessLabels` states what those tests show. */
module Actions {
  import opened Base
  import opened Config

  // ------------------------------------------------------------------ engines

  /** Why the regular-expression engine gave up: the pattern does not compile, or
      the replacement refers to a group the pattern lacks. */
  datatype RegexError = RegexError(regex: string, replacement: string)

  /** `Pattern.compile(regex).matcher(input).replaceAll(replacement)`. */
  type ReplaceAll = (string, string, string) -> Result<string, RegexError>

  /** `Pattern.compile(regex).matcher(input).find()`: whether the pattern occurs. */
  type Finds = (string, string) -> bool

  /** What running a label script on a value gave: it threw, it returned a
      null-like value, or it returned a value whose `toString()` is `text`. */
  datatype ScriptOutcome = EvalError | NullLike | Value(text: string)

  /** The script engine: evaluates `(function(value) { script })` and applies it to
      the (possibly null) value. */
  type Evaluator = (string, Option<string>) -> ScriptOutcome

  /** The engines the actions run on. */
  datatype Engines = Engines(replaceAll: ReplaceAll, evaluate: Evaluator)

  /** A `replaceAll` that leaves the input alone when the pattern does not occur. */
  ghost predicate KeepsUnmatched(replaceAll: ReplaceAll, finds: Finds) {
    forall regex, replacement, input ::
      !finds(regex, input) && replaceAll(regex, replacement, input).Success? ==>
        replaceAll(regex, replacement, input).value == input
  }

  // ------------------------------------------------------------------ actions

  /** `NoOpAction.process`: the value as it came, null and the empty string included. */
  function NoOp(value: Option<string>, cfg: LabelConfig): (r: Option<string>)
    ensures r == value
  {
    value
  }

  /** The regex action rewrites only a non-null value, and only when both the regex
      and the replacement are set and the regex is not empty. */
  predicate RegexApplies(value: Option<string>, cfg: LabelConfig) {
    && value.Some?
    && cfg.regex.Some?
    && cfg.replacement.Some?
    && cfg.regex.value != ""
  }

  /** `RegexReplaceAction.process`. The engine's exceptions (an invalid pattern, an
      unknown group in the replacement) are not caught and leave as a `Failure`. */
  function RegexReplace(value: Option<string>, cfg: LabelConfig, replaceAll: ReplaceAll)
    : (r: Result<Option<string>, RegexError>)
    ensures !RegexApplies(value, cfg) ==> r == Success(value)
    ensures RegexApplies(value, cfg) ==>
              var out := replaceAll(cfg.regex.value, cfg.replacement.value, value.value);
              && (r.Failure? <==> out.Failure?)
              && (r.Failure? ==> r.error == out.error)
              && (r.Success? ==> r.value == Some(out.value))
    ensures r.Success? ==> (r.value.None? <==> value.None?)
  {
    if value.Some? && cfg.regex.Some? && cfg.replacement.Some? then
      if cfg.regex.value == "" then Success(value)
      else
        var out :- replaceAll(cfg.regex.value, cfg.replacement.value, value.value);
        Success(Some(out))
    else
      Success(value)
  }

  /** A pattern that does not occur in the value leaves the value unchanged, for an
      engine that leaves unmatched input alone. */
  lemma RegexWithoutMatchKeepsValue(value: Option<string>, cfg: LabelConfig,
                                    replaceAll: ReplaceAll, finds: Finds)
    requires KeepsUnmatched(replaceAll, finds)
    requires RegexApplies(value, cfg) ==> !finds(cfg.regex.value, value.value)
    ensures RegexReplace(value, cfg, replaceAll).Success? ==>
              RegexReplace(value, cfg, replaceAll) == Success(value)
  {
  }

  /** The script action runs only when a non-empty script is set. */
  predicate ScriptApplies(cfg: LabelConfig) {
    cfg.script.Some? && cfg.script.value != ""
  }

  /** `JavaScriptAction.process`: never fails. An engine error or a null-like result
      gives back the value as it came; any other result is returned as its string form. */
  function Script(value: Option<string>, cfg: LabelConfig, evaluate: Evaluator): (r: Option<string>)
    ensures !ScriptApplies(cfg) ==> r == value
    ensures ScriptApplies(cfg) && evaluate(cfg.script.value, value).Value? ==>
              r == Some(evaluate(cfg.script.value, value).text)
    ensures ScriptApplies(cfg) && !evaluate(cfg.script.value, value).Value? ==> r == value
  {
    if cfg.script.None? || cfg.script.value == "" then value
    else
      match evaluate(cfg.script.value, value)
      case EvalError => value
      case NullLike => value
      case Value(text) => Some(text)
  }

  /** The script action's result is either the value as it came or what the script
      returned, so a script that fails or returns null can never lose a label. */
  lemma ScriptResultIsInputOrEngineValue(value: Option<string>, cfg: LabelConfig, evaluate: Evaluator)
    ensures var r := Script(value, cfg, evaluate);
            r == value || (ScriptApplies(cfg) && r == Some(evaluate(cfg.script.value, value).text))
    ensures value.Some? ==> Script(value, cfg, evaluate).Some?
  {
  }

  // ---------------------------------------------------------- label processing

  /** The actions a label can name. */
  datatype ActionKind = NoOpAction | RegexReplaceAction | JavaScriptAction

  /** How the label processor picks an action from a label's `action` string. */
  type ActionLookup = Option<string> -> ActionKind

  /** The choices the label processor's callers and tests rely on: `regex_replace`
      selects the regex action and `NO_OP` the no-op action. */
  ghost predicate KnownActions(actionOf: ActionLookup) {
    && actionOf(Some("regex_replace")) == RegexReplaceAction
    && actionOf(Some("NO_OP")) == NoOpAction
  }

  /** Applies one action. Only the regex action can fail. */
  function Apply(kind: ActionKind, value: Option<string>, cfg: LabelConfig, engines: Engines)
    : (r: Result<Option<string>, RegexError>)
    ensures kind != RegexReplaceAction ==> r.Success?
    ensures kind == NoOpAction ==> r == Success(value)
    ensures kind == RegexReplaceAction ==> r == RegexReplace(value, cfg, engines.replaceAll)
    ensures kind == JavaScriptAction ==> r == Success(Script(value, cfg, engines.evaluate))
  {
    match kind
    case NoOpAction => Success(NoOp(value, cfg))
    case RegexReplaceAction => RegexReplace(value, cfg, engines.replaceAll)
    case JavaScriptAction => Success(Script(value, cfg, engines.evaluate))
  }

  /** The raw value of a label: its source field when the record has it, else its
      default value, which may be null. */
  function RawValue(data: map<string, string>, cfg: LabelConfig): (r: Option<string>)
    ensures cfg.sourceField.Some? && cfg.sourceField.value in data ==> r == Some(data[cfg.sourceField.value])
    ensures !(cfg.sourceField.Some? && cfg.sourceField.value in data) ==> r == cfg.defaultValue
  {
    if cfg.sourceField.Some? && cfg.sourceField.value in data then Some(data[cfg.sourceField.value])
    else cfg.defaultValue
  }

  /** One label's value: the raw value through the label's action, a null becoming "". */
  function LabelValue(data: map<string, string>, cfg: LabelConfig, actionOf: ActionLookup, engines: Engines)
    : (r: Result<string, RegexError>)
    ensures r.Failure? <==> Apply(actionOf(cfg.action), RawValue(data, cfg), cfg, engines).Failure?
    ensures r.Success? ==>
              var out := Apply(actionOf(cfg.action), RawValue(data, cfg), cfg, engines).value;
              r.value == out.GetOr("")
  {
    var out :- Apply(actionOf(cfg.action), RawValue(data, cfg), cfg, engines);
    Success(out.GetOr(""))
  }

  /** `LabelProcessor.processLabels(data, metric)` for a metric whose labels are
      `labels`: one value per label, in label order; the first failing action ends
      the call. */
  function ProcessLabels(data: map<string, string>, labels: seq<LabelConfig>,
                         actionOf: ActionLookup, engines: Engines)
    : (r: Result<seq<string>, RegexError>)
    ensures r.Success? ==> |r.value| == |labels|
    ensures r.Success? ==> forall i :: 0 <= i < |labels| ==>
              LabelValue(data, labels[i], actionOf, engines) == Success(r.value[i])
    ensures r.Failure? <==> exists i :: 0 <= i < |labels| && LabelValue(data, labels[i], actionOf, engines).Failure?
    ensures r.Failure? ==> exists i :: 0 <= i < |labels| && LabelValue(data, labels[i], actionOf, engines) == Failure(r.error)
  {
    if |labels| == 0 then Success([])
    else
      var first :- LabelValue(data, labels[0], actionOf, engines);
      var rest :- ProcessLabels(data, labels[1..], actionOf, engines);
      assert forall i :: 1 <= i < |labels| ==> labels[i] == labels[1..][i - 1];
      Success([first] + rest)
  }

  /** A label whose action is the no-op and whose source field is in the record takes
      the field's value. */
  lemma NoOpLabelTakesField(data: map<string, string>, cfg: LabelConfig, actionOf: ActionLookup, engines: Engines)
    requires actionOf(cfg.action) == NoOpAction
    requires cfg.sourceField.Some? && cfg.sourceField.value in data
    ensures LabelValue(data, cfg, actionOf, engines) == Success(data[cfg.sourceField.value])
  {
  }

  /** A label whose source field is missing takes its default value, or "" when it
      has none, whatever the action when no rewrite applies. */
  lemma MissingFieldTakesDefault(data: map<string, string>, cfg: LabelConfig, actionOf: ActionLookup, engines: Engines)
    requires cfg.sourceField.None? || cfg.sourceField.value !in data
    requires cfg.regex.None? && cfg.script.None?
    ensures LabelValue(data, cfg, actionOf, engines) == Success(cfg.defaultValue.GetOr(""))
  {
  }

  /** With the regex action, a label takes the engine's rewrite of its field. */
  lemma RegexLabelRewritesField(data: map<string, string>, cfg: LabelConfig, actionOf: ActionLookup, engines: Engines)
    requires KnownActions(actionOf)
    requires cfg.action == Some("regex_replace")
    requires cfg.sourceField.Some? && cfg.sourceField.value in data
    requires cfg.regex.Some? && cfg.regex.value != "" && cfg.replacement.Some?
    requires engines.replaceAll(cfg.regex.value, cfg.replacement.value, data[cfg.sourceField.value]).Success?
    ensures LabelValue(data, cfg, actionOf, engines)
            == Success(engines.replaceAll(cfg.regex.value, cfg.replacement.value, data[cfg.sourceField.value]).value)
  {
  }
}

=== FILE: base.dfy ===
/** Shared vocabulary: optional values for Java's nullable references, results for
    thrown exceptions, Java's fixed-width integers, and small sequence helpers. */
module Base {

  /** A Java reference that may be null. */
  datatype Option<+T> = None | Some(value: T) {
    function GetOr(default: T): T {
      match this
      case Some(v) => v
      case None => default
    }
  }

  /** The outcome of a Java call that either returns normally or throws. */
  datatype Result<+T, +E> = Success(value: T) | Failure(error: E) {
    predicate IsFailure() { Failure? }

    function PropagateFailure<U>(): Result<U, E>
      requires Failure?
    {
      Failure(error)
    }

    function Extract(): T
      requires Success?
    {
      value
    }
  }

  const Int32Min: int := -0x8000_0000
  const Int32Max: int := 0x7FFF_FFFF
  const Int64Min: int := -0x8000_0000_0000_0000
  const Int64Max: int := 0x7FFF_FFFF_FFFF_FFFF

  /** Java `int`. */
  type Int32 = x: int | Int32Min <= x <= Int32Max

  /** Java `long`. */
  type Int64 = x: int | Int64Min <= x <= Int64Max

  /** Two's-complement wrap-around of a mathematical integer into a Java `long`. */
  function WrapInt64(x: int): (r: Int64)
    ensures Int64Min <= x <= Int64Max ==> r == x
    ensures (r - x) % 0x1_0000_0000_0000_0000 == 0
  {
    var m := (x - Int64Min) % 0x1_0000_0000_0000_0000;
    m + Int64Min
  }

  /** No element occurs twice. */
  ghost predicate Distinct<T>(s: seq<T>) {
    forall i, j :: 0 <= i < j < |s| ==> s[i] != s[j]
  }

  /** The elements of `s` for which `keep` holds, in their original order. */
  function Filter<T(!new)>(s: seq<T>, keep: T -> bool): (r: seq<T>)
    ensures |r| <= |s|
    ensures forall x :: x in r <==> x in s && keep(x)
    ensures Distinct(s) ==> Distinct(r)
  {
    if |s| == 0 then []
    else
      var rest := Filter(s[1..], keep);
      assert forall x :: x in s[1..] ==> x in s;
      if keep(s[0]) then
        assert Distinct(s) ==> s[0] !in s[1..];
        DistinctCons(s[0], rest);
        [s[0]] + rest
      else rest
  }

  /** `s` without any occurrence of `x`. */
  function Without<T(==,!new)>(s: seq<T>, x: T): (r: seq<T>)
    ensures forall y :: y in r <==> y in s && y != x
    ensures Distinct(s) ==> Distinct(r)
    ensures x in s && Distinct(s) ==> |r| == |s| - 1
    ensures x !in s ==> r == s
  {
    if |s| == 0 then []
    else
      var rest := Without(s[1..], x);
      assert forall y :: y in s[1..] ==> y in s;
      if s[0] == x then
        assert Distinct(s) ==> x !in s[1..];
        rest
      else
        assert Distinct(s) ==> s[0] !in s[1..];
        DistinctCons(s[0], rest);
        [s[0]] + rest
  }

  lemma DistinctCons<T>(x: T, s: seq<T>)
    ensures Distinct(s) && x !in s ==> Distinct([x] + s)
  {
    if Distinct(s) && x !in s {
      var t := [x] + s;
      forall i, j | 0 <= i < j < |t|
        ensures t[i] != t[j]
      {
        if i == 0 {
          assert t[j] == s[j - 1];
        } else {
          assert t[i] == s[i - 1] && t[j] == s[j - 1];
        }
      }
    }
  }

  /** The elements of a sequence without repetitions are as many as its length. */
  lemma {:induction false} DistinctCardinality<T>(s: seq<T>)
    requires Distinct(s)
    ensures |(set x | x in s)| == |s|
  {
    if |s| > 0 {
      assert Distinct(s[1..]);
      DistinctCardinality(s[1..]);
      assert (set x | x in s) == (set x | x in s[1..]) + {s[0]};
      assert s[0] !in (set x | x in s[1..]);
    }
  }

  /** A map whose keys are the elements of a sequence without repetitions has as
      many entries as the sequence has elements. */
  lemma KeysOfDistinctSeq<K, V>(s: seq<K>, m: map<K, V>)
    requires Distinct(s)
    requires forall k :: k in m <==> k in s
    ensures |m| == |s|
  {
    DistinctCardinality(s);
    assert m.Keys == (set x | x in s);
  }
}

=== FILE: config.dfy ===
/** The configuration records read by the tailer manager, the metrics manager and the
    metric handlers.  A Java setter `setX(v)` is the datatype update `c.(x := v)`, so a
    getter after a setter returns the value set and leaves every other field alone by
    construction. */
module Config {
  import opened Base

  /** One label of a metric: where its value comes from and how it is transformed.
      It is modelled only as far as its callers and tests use it: the fields are
      the ones they read, each nullable. */
  datatype LabelConfig = LabelConfig(
    name: Option<string>,
    sourceField: Option<string>,
    defaultValue: Option<string>,
    action: Option<string>,
    regex: Option<string>,
    replacement: Option<string>,
    script: Option<string>)

  /** A label configuration with every field unset, as `new LabelConfig()` builds it. */
  const EmptyLabelConfig: LabelConfig :=
    LabelConfig(None, None, None, None, None, None, None)

  /** One metric definition. `metricType` is the configured `type` string and
      `matchFormat` the configured `match` pattern. */
  datatype MetricConfig = MetricConfig(
    name: Option<string>,
    help: Option<string>,
    metricType: Option<string>,
    matchFormat: Option<string>,
    valueField: Option<string>,
    maxLabelSets: Int32,
    expirationSeconds: Int32,
    labels: Option<seq<LabelConfig>>,
    buckets: Option<seq<real>>,
    quantiles: Option<map<real, real>>)

  /** `max_label_sets` when not configured; 0 means the label cache has no size bound. */
  const DefaultMaxLabelSets: Int32 := 0
  /** `expiration_seconds` when not configured; 0 means label sets never expire. */
  const DefaultExpirationSeconds: Int32 := 0

  /** `new MetricConfig()`: every reference field null, both cache bounds at their defaults. */
  function NewMetricConfig(): (r: MetricConfig)
    ensures r.name.None? && r.help.None? && r.metricType.None? && r.matchFormat.None?
    ensures r.valueField.None? && r.labels.None? && r.buckets.None? && r.quantiles.None?
    ensures r.maxLabelSets == 0 && r.expirationSeconds == 0
  {
    MetricConfig(None, None, None, None, None, DefaultMaxLabelSets, DefaultExpirationSeconds,
                 None, None, None)
  }

  /** The application configuration. */
  datatype AppConfig = AppConfig(
    path: Option<string>,
    patterns: Option<map<string, string>>,
    metrics: Option<seq<MetricConfig>>,
    port: Int32,
    fileScanIntervalSeconds: Int32,
    fileInactivityTimeoutSeconds: Int32,
    tailFromEnd: bool)

  const DefaultPort: Int32 := 9090
  const DefaultScanIntervalSeconds: Int32 := 10
  /** One hour. */
  const DefaultInactivityTimeoutSeconds: Int32 := 3600
  const DefaultTailFromEnd: bool := false

  /** `new AppConfig()`. */
  function NewAppConfig(): (r: AppConfig)
    ensures r.path.None? && r.patterns.None? && r.metrics.None?
    ensures r.port == 9090 && r.fileScanIntervalSeconds == 10
    ensures r.fileInactivityTimeoutSeconds == 3600 && !r.tailFromEnd
  {
    AppConfig(None, None, None, DefaultPort, DefaultScanIntervalSeconds,
              DefaultInactivityTimeoutSeconds, DefaultTailFromEnd)
  }
}

=== FILE: handlers.dfy ===
/** The metric handlers and their factory. A handler owns one metric family (the
    Prometheus collector registered under the metric's name) and a label cache from
    label tuples to the family's children. A child is a reference: the family maps
    each exposed label tuple to a child identifier, and the cache holds identifiers
    too, so a child can stay reachable from the cache after the family has dropped
    it, as a Java object does.

    The Prometheus client is reduced to the state a child exposes (a counter's
    total, a gauge's value, a histogram's count, sum and cumulative bucket counts,
    a summary's count and sum); its validation of names, help texts, label names,
    buckets and quantiles is the oracle `accepts`. */
module Handlers {
  import opened Base
  import opened Config
  import opened LabelCaches
  import opened Actions

  // ------------------------------------------------------------------ factory

  datatype MetricKind = CounterKind | GaugeKind | HistogramKind | SummaryKind

  /** The `type` string that selects each kind. */
  function TypeName(k: MetricKind): string {
    match k
    case CounterKind => "counter"
    case GaugeKind => "gauge"
    case HistogramKind => "histogram"
    case SummaryKind => "summary"
  }

  /** The factory's lookup table: exactly the four lower-case names; anything else,
      null and other casings included, has no handler class. */
  function KindOf(metricType: Option<string>): (r: Option<MetricKind>)
    ensures r.Some? <==> metricType.Some? && metricType.value in {"counter", "gauge", "histogram", "summary"}
    ensures r.Some? ==> TypeName(r.value) == metricType.value
  {
    match metricType
    case None => None
    case Some(t) =>
      if t == "counter" then Some(CounterKind)
      else if t == "gauge" then Some(GaugeKind)
      else if t == "histogram" then Some(HistogramKind)
      else if t == "summary" then Some(SummaryKind)
      else None
  }

  /** Each kind is selected by its own name, and only by it. */
  lemma KindOfTypeName(k: MetricKind, t: Option<string>)
    ensures KindOf(Some(TypeName(k))) == Some(k)
    ensures KindOf(t) == Some(k) <==> t == Some(TypeName(k))
  {
  }

  /** What the Prometheus builder is given. */
  datatype FamilySpec = FamilySpec(
    kind: MetricKind,
    name: Option<string>,
    help: Option<string>,
    labelNames: seq<Option<string>>,
    bounds: seq<real>,
    quantiles: map<real, real>)

  /** The state one child exposes. For a histogram, `cumulative[i]` counts the
      observations at most `bounds[i]`; the `+Inf` bucket is `count`. */
  datatype Child =
    | CounterChild(total: real)
    | GaugeChild(value: real)
    | HistogramChild(count: nat, sum: real, cumulative: seq<nat>)
    | SummaryChild(count: nat, sum: real)

  /** A registered family: the exposed label tuples, each with its child identifier,
      the children by identifier, and the next identifier to hand out. */
  datatype Family = Family(spec: FamilySpec, series: map<LabelKey, nat>, children: map<nat, Child>, nextId: nat)

  /** A handler: its metric configuration, the label list it was built with, its
      family and its label cache. */
  datatype Handler = Handler(config: MetricConfig, labels: seq<LabelConfig>, family: Family, cache: LabelCache<nat>)

  datatype FactoryError = UnsupportedType(metricType: Option<string>) | ConstructionFailed(typeName: string)

  /** The custom buckets when they are set and non-empty, the client's defaults otherwise. */
  function Buckets(configured: Option<seq<real>>, defaults: seq<real>): (r: seq<real>)
    ensures configured.Some? && |configured.value| > 0 ==> r == configured.value
    ensures configured.None? || |configured.value| == 0 ==> r == defaults
  {
    if configured.Some? && |configured.value| > 0 then configured.value else defaults
  }

  /** The quantile/error pairs, none when the map is null or empty. */
  function Quantiles(configured: Option<map<real, real>>): (r: map<real, real>)
    ensures configured.None? ==> r == map[]
    ensures configured.Some? ==> r == configured.value
  {
    if configured.Some? && |configured.value| > 0 then configured.value else map[]
  }

  /** The label names handed to the builder: the configured labels' names, in order. */
  function LabelNames(labels: seq<LabelConfig>): (r: seq<Option<string>>)
    ensures |r| == |labels|
    ensures forall i :: 0 <= i < |labels| ==> r[i] == labels[i].name
  {
    seq(|labels|, i requires 0 <= i < |labels| => labels[i].name)
  }

  /** The builder settings a handler of kind `k` derives from its configuration: only
      a histogram has buckets and only a summary quantiles. */
  function SpecOf(k: MetricKind, cfg: MetricConfig, labels: seq<LabelConfig>, defaultBuckets: seq<real>)
    : (r: FamilySpec)
    ensures r.kind == k && r.name == cfg.name && r.help == cfg.help
    ensures r.labelNames == LabelNames(labels)
    ensures r.bounds == (if k == HistogramKind then Buckets(cfg.buckets, defaultBuckets) else [])
    ensures r.quantiles == (if k == SummaryKind then Quantiles(cfg.quantiles) else map[])
  {
    FamilySpec(k, cfg.name, cfg.help, LabelNames(labels),
               if k == HistogramKind then Buckets(cfg.buckets, defaultBuckets) else [],
               if k == SummaryKind then Quantiles(cfg.quantiles) else map[])
  }

  /** The child a new label tuple starts with. */
  function NewChild(spec: FamilySpec): (r: Child)
    ensures Fits(spec, r)
  {
    match spec.kind
    case CounterKind => CounterChild(0.0)
    case GaugeKind => GaugeChild(0.0)
    case HistogramKind => HistogramChild(0, 0.0, seq(|spec.bounds|, _ => 0))
    case SummaryKind => SummaryChild(0, 0.0)
  }

  /** A child of the family's kind, with one cumulative count per bucket bound. */
  predicate Fits(spec: FamilySpec, c: Child) {
    match spec.kind
    case CounterKind => c.CounterChild?
    case GaugeKind => c.GaugeChild?
    case HistogramKind => c.HistogramChild? && |c.cumulative| == |spec.bounds|
    case SummaryKind => c.SummaryChild?
  }

  /** The sample names a family claims in the Prometheus client's collector
      registry: its own name and, for a counter, a histogram and a summary, the names
      of the samples derived from it. */
  function ReservedNames(spec: FamilySpec): (r: set<string>)
    requires spec.name.Some?
    ensures spec.name.value in r
    ensures spec.kind == GaugeKind ==> r == {spec.name.value}
    ensures spec.kind == HistogramKind ==> spec.name.value + "_bucket" in r
    ensures spec.kind != GaugeKind ==> spec.name.value + "_created" in r
  {
    var n := spec.name.value;
    match spec.kind
    case CounterKind => {n, n + "_total", n + "_created"}
    case GaugeKind => {n}
    case HistogramKind => {n, n + "_count", n + "_sum", n + "_bucket", n + "_created"}
    case SummaryKind => {n, n + "_count", n + "_sum", n + "_created"}
  }

  /** `LogHandlerFactory.createHandler(config, registry)` where `registry` holds the
      sample names already claimed. An unknown type is rejected before anything is
      built; a known type fails to build when the label list is null, when the client
      rejects the settings, or when one of the names the family would claim is
      already claimed. */
  function CreateHandler(cfg: MetricConfig, registry: set<string>, accepts: FamilySpec -> bool,
                         defaultBuckets: seq<real>)
    : (r: Result<(Handler, set<string>), FactoryError>)
    ensures KindOf(cfg.metricType).None? <==> r == Failure(UnsupportedType(cfg.metricType))
    ensures KindOf(cfg.metricType).Some? && r.Failure? ==>
              r.error == ConstructionFailed(cfg.metricType.value)
    ensures r.Success? <==>
              && KindOf(cfg.metricType).Some?
              && cfg.labels.Some?
              && accepts(SpecOf(KindOf(cfg.metricType).value, cfg, cfg.labels.value, defaultBuckets))
              && cfg.name.Some?
              && ReservedNames(SpecOf(KindOf(cfg.metricType).value, cfg, cfg.labels.value, defaultBuckets)) !! registry
    ensures r.Success? ==>
              var h := r.value.0;
              && h.config == cfg && h.labels == cfg.labels.value
              && h.family.spec == SpecOf(KindOf(cfg.metricType).value, cfg, cfg.labels.value, defaultBuckets)
              && h.family.series == map[]
              && h.cache == NewLabelCache(cfg.maxLabelSets, cfg.expirationSeconds)
              && r.value.1 == registry + ReservedNames(h.family.spec)
              && Consistent(h)
  {
    match KindOf(cfg.metricType)
    case None => Failure(UnsupportedType(cfg.metricType))
    case Some(k) =>
      if cfg.labels.None? then Failure(ConstructionFailed(cfg.metricType.value))
      else
        var spec := SpecOf(k, cfg, cfg.labels.value, defaultBuckets);
        if !accepts(spec) || cfg.name.None? || !(ReservedNames(spec) !! registry) then
          Failure(ConstructionFailed(cfg.metricType.value))
        else
          var h := Handler(cfg, cfg.labels.value, Family(spec, map[], map[], 0),
                           NewLabelCache(cfg.maxLabelSets, cfg.expirationSeconds));
          Success((h, registry + ReservedNames(spec)))
  }

  /** A histogram named `x` claims `x_bucket`, so a later gauge named `x_bucket` is
      refused although no metric of that name was built before. */
  lemma DerivedNameCollides(hist: MetricConfig, gauge: MetricConfig, accepts: FamilySpec -> bool,
                            defaultBuckets: seq<real>)
    requires hist.metricType == Some("histogram") && hist.name == Some("x") && hist.labels.Some?
    requires accepts(SpecOf(HistogramKind, hist, hist.labels.value, defaultBuckets))
    requires gauge.metricType == Some("gauge") && gauge.name == Some("x_bucket")
    ensures CreateHandler(hist, {}, accepts, defaultBuckets).Success?
    ensures CreateHandler(gauge, CreateHandler(hist, {}, accepts, defaultBuckets).value.1,
                          accepts, defaultBuckets).Failure?
  {
    var spec := SpecOf(HistogramKind, hist, hist.labels.value, defaultBuckets);
    assert spec.name.value + "_bucket" == "x_bucket";
  }

  /** A metric that leaves `max_label_sets` and `expiration_seconds` at their defaults
      gets a label cache with neither a size bound nor an expiry, so it never drops a
      label set (`LabelCaches.UnboundedNeverEvicts`). */
  lemma DefaultBoundsDisableCache(cfg: MetricConfig, registry: set<string>, accepts: FamilySpec -> bool,
                                  defaultBuckets: seq<real>)
    requires cfg.maxLabelSets == NewMetricConfig().maxLabelSets
    requires cfg.expirationSeconds == NewMetricConfig().expirationSeconds
    requires CreateHandler(cfg, registry, accepts, defaultBuckets).Success?
    ensures var h := CreateHandler(cfg, registry, accepts, defaultBuckets).value.0;
            h.cache.maxSize == 0 && h.cache.expireMillis == 0
  {
  }

  // ------------------------------------------------------------------ families

  ghost predicate FamilyValid(f: Family) {
    && (forall k :: k in f.series ==> f.series[k] in f.children)
    && (forall id :: id in f.children ==> id < f.nextId && Fits(f.spec, f.children[id]))
    && (forall k1, k2 :: k1 in f.series && k2 in f.series && k1 != k2 ==> f.series[k1] != f.series[k2])
  }

  /** The cache and the family are each well formed and the cache only names
      children the family holds. */
  ghost predicate WellFormed(h: Handler) {
    && LabelCaches.Valid(h.cache)
    && FamilyValid(h.family)
    && (forall k :: k in h.cache.entries ==> h.cache.entries[k].value in h.family.children)
  }

  /** The family and the cache agree: the exposed label tuples are exactly the cached
      ones, each cached identifier naming its tuple's child. */
  ghost predicate Consistent(h: Handler) {
    && WellFormed(h)
    && |h.family.spec.labelNames| == |h.labels|
    && h.family.series.Keys == h.cache.entries.Keys
    && (forall k :: k in h.cache.entries ==> h.cache.entries[k].value == h.family.series[k])
  }

  /** What a scrape shows: each exposed label tuple with its child's state. */
  function Exposed(f: Family): (r: map<LabelKey, Child>)
    requires FamilyValid(f)
    ensures r.Keys == f.series.Keys
    ensures forall k :: k in r ==> r[k] == f.children[f.series[k]]
  {
    map k | k in f.series :: f.children[f.series[k]]
  }

  /** `family.labels(values)`: the child already exposed under the tuple, or a new
      child under a new identifier. */
  function Labels(f: Family, key: LabelKey): (r: (Family, nat))
    requires FamilyValid(f)
    ensures FamilyValid(r.0) && r.0.spec == f.spec
    ensures key in f.series ==> r == (f, f.series[key])
    ensures key !in f.series ==>
              && r.1 == f.nextId
              && r.0 == f.(series := f.series[key := f.nextId],
                           children := f.children[f.nextId := NewChild(f.spec)],
                           nextId := f.nextId + 1)
  {
    if key in f.series then (f, f.series[key])
    else
      (f.(series := f.series[key := f.nextId],
          children := f.children[f.nextId := NewChild(f.spec)],
          nextId := f.nextId + 1), f.nextId)
  }

  /** `family.remove(values)` for each tuple the removal callback receives. */
  function RemoveSeries(f: Family, keys: seq<LabelKey>): (r: Family)
    ensures r.spec == f.spec && r.children == f.children && r.nextId == f.nextId
    ensures forall k :: k in r.series <==> k in f.series && k !in keys
    ensures forall k :: k in r.series ==> r.series[k] == f.series[k]
    ensures FamilyValid(f) ==> FamilyValid(r)
  {
    f.(series := map k | k in f.series && k !in keys :: f.series[k])
  }

  // ------------------------------------------------------------------ handling

  datatype HandleError =
    | LabelFailed(cause: RegexError)
    | NotANumber(text: string)
    | NegativeIncrement(amount: real)

  /** The engines and oracles a handler calls: the label processor's action lookup,
      the label actions' engines and `Double.parseDouble`. */
  datatype Environment = Environment(actionOf: ActionLookup, engines: Engines, parseDouble: string -> Option<real>)

  /** The observed value: 1.0 when no value field is configured or the record lacks
      it, the parsed field otherwise; a field that does not parse is an error. */
  function ResolveValue(valueField: Option<string>, data: map<string, string>, parseDouble: string -> Option<real>)
    : (r: Result<real, HandleError>)
    ensures valueField.None? || valueField.value !in data ==> r == Success(1.0)
    ensures valueField.Some? && valueField.value in data ==>
              var text := data[valueField.value];
              && (r.Success? <==> parseDouble(text).Some?)
              && (r.Success? ==> r.value == parseDouble(text).value)
              && (r.Failure? ==> r.error == NotANumber(text))
  {
    if valueField.Some? && valueField.value in data then
      match parseDouble(data[valueField.value])
      case None => Failure(NotANumber(data[valueField.value]))
      case Some(v) => Success(v)
    else Success(1.0)
  }

  /** One observation: a counter grows by the value and refuses a negative one, a
      gauge is set to it, a histogram and a summary count it and add it to their
      sum, and a histogram also counts it in every bucket whose bound it does not
      exceed. */
  function Observe(spec: FamilySpec, c: Child, v: real): (r: Result<Child, HandleError>)
    requires Fits(spec, c)
    ensures r.Success? ==> Fits(spec, r.value)
    ensures r.Failure? <==> spec.kind == CounterKind && v < 0.0
    ensures r.Success? && spec.kind == CounterKind ==> r.value.total == c.total + v
    ensures spec.kind == GaugeKind ==> r == Success(GaugeChild(v))
    ensures spec.kind in {HistogramKind, SummaryKind} ==>
              r.Success? && r.value.count == c.count + 1 && r.value.sum == c.sum + v
    ensures spec.kind == HistogramKind ==> forall i :: 0 <= i < |spec.bounds| ==>
              r.value.cumulative[i] == c.cumulative[i] + (if v <= spec.bounds[i] then 1 else 0)
  {
    match c
    case CounterChild(total) =>
      if v < 0.0 then Failure(NegativeIncrement(v)) else Success(CounterChild(total + v))
    case GaugeChild(_) => Success(GaugeChild(v))
    case HistogramChild(count, sum, cumulative) =>
      Success(HistogramChild(count + 1, sum + v,
                             seq(|cumulative|, i requires 0 <= i < |cumulative| =>
                                   cumulative[i] + (if v <= spec.bounds[i] then 1 else 0))))
    case SummaryChild(count, sum) => Success(SummaryChild(count + 1, sum + v))
  }

  /** The result of `handle(data)`: the handler afterwards and the exception that left
      the call, if any. */
  datatype Handled = Handled(handler: Handler, failure: Option<HandleError>)

  /** The label tuple and value of a record, or the error that ends the call before
      the cache is consulted. */
  function Prepare(h: Handler, data: map<string, string>, env: Environment): (r: Result<(LabelKey, real), HandleError>)
    ensures r.Success? ==> |r.value.0| == |h.labels|
    ensures r.Success? ==> ProcessLabels(data, h.labels, env.actionOf, env.engines) == Success(r.value.0)
                           && ResolveValue(h.config.valueField, data, env.parseDouble) == Success(r.value.1)
    ensures r.Failure? <==> (ProcessLabels(data, h.labels, env.actionOf, env.engines).Failure?
                             || ResolveValue(h.config.valueField, data, env.parseDouble).Failure?)
  {
    match ProcessLabels(data, h.labels, env.actionOf, env.engines)
    case Failure(e) => Failure(LabelFailed(e))
    case Success(key) =>
      var v :- ResolveValue(h.config.valueField, data, env.parseDouble);
      Success((key, v))
  }

  /** Applies an observation to the child `id` of `f`. */
  function Record(f: Family, id: nat, v: real): (r: Result<Family, HandleError>)
    requires FamilyValid(f) && id in f.children
    ensures r.Failure? <==> Observe(f.spec, f.children[id], v).Failure?
    ensures r.Failure? ==> r.error == Observe(f.spec, f.children[id], v).error
    ensures r.Success? ==> r.value == f.(children := f.children[id := Observe(f.spec, f.children[id], v).value])
    ensures r.Success? ==> FamilyValid(r.value)
  {
    var c :- Observe(f.spec, f.children[id], v);
    Success(f.(children := f.children[id := c]))
  }

  /** What the as-written handler keeps, though it does not keep `Consistent`: every
      exposed tuple is cached, under the identifier of its own child, and no two
      cached tuples name the same child. A tuple can be cached without being exposed. */
  ghost predicate Tracked(h: Handler) {
    && WellFormed(h)
    && (forall k :: k in h.family.series ==>
          k in h.cache.entries && h.cache.entries[k].value == h.family.series[k])
    && (forall k1, k2 :: k1 in h.cache.entries && k2 in h.cache.entries && k1 != k2 ==>
          h.cache.entries[k1].value != h.cache.entries[k2].value)
  }

  /** A handler whose family and cache agree keeps what the as-written handler keeps;
      in particular every handler the factory builds does. */
  lemma ConsistentIsTracked(h: Handler)
    requires Consistent(h)
    ensures Tracked(h)
  {
  }

  /** The child the as-written lookup hands back for `key`: the cached one while the
      tuple's entry is live; otherwise the supplier's, which is the child the family
      still exposes under the tuple, or a new one. */
  function LookedUpChild(h: Handler, key: LabelKey, nowMillis: int): (c: Child)
    requires WellFormed(h)
    ensures Fits(h.family.spec, c)
  {
    if Live(h.cache, key, nowMillis) then h.family.children[h.cache.entries[key].value]
    else if key in h.family.series then h.family.children[h.family.series[key]]
    else NewChild(h.family.spec)
  }

  /** The Java `handle(data)`, as written. The supplier `family.labels(values)` runs
      inside the cache lookup, against the family as it is then, so for a tuple whose
      entry has expired it hands back the child still exposed under that tuple; the
      removal callback `family.remove(key)` runs only after the lookup has returned,
      and then removes that same series although the cache holds the tuple again.
      The observation is recorded on the looked-up child all the same; the tuple is
      exposed afterwards exactly when it was live and exposed, or was not cached at
      all. Every other tuple keeps its child, and loses its series exactly when the
      cache dropped it. */
  function HandleAsWritten(h: Handler, data: map<string, string>, nowMillis: int, env: Environment)
    : (r: Handled)
    requires Tracked(h)
    ensures Tracked(r.handler)
    ensures Prepare(h, data, env).Failure? ==> r == Handled(h, Some(Prepare(h, data, env).error))
    ensures Prepare(h, data, env).Success? ==>
              var key := Prepare(h, data, env).value.0;
              var v := Prepare(h, data, env).value.1;
              var before := LookedUpChild(h, key, nowMillis);
              && key in r.handler.cache.entries
              && (key in Exposed(r.handler.family) <==>
                    if Live(h.cache, key, nowMillis) then key in h.family.series else key !in h.cache.entries)
              && (r.failure.None? <==> Observe(h.family.spec, before, v).Success?)
              && (r.failure.Some? ==> Observe(h.family.spec, before, v) == Failure(r.failure.value))
              && (key in Exposed(r.handler.family) && r.failure.None? ==>
                    Exposed(r.handler.family)[key] == Observe(h.family.spec, before, v).value)
              && (key in Exposed(r.handler.family) && r.failure.Some? ==>
                    Exposed(r.handler.family)[key] == before)
    ensures Prepare(h, data, env).Success? ==>
              var key := Prepare(h, data, env).value.0;
              && (forall k :: k in Exposed(r.handler.family) && k != key ==>
                    k in Exposed(h.family) && Exposed(r.handler.family)[k] == Exposed(h.family)[k])
              && (forall k :: k in Exposed(h.family) && k != key ==>
                    (k in Exposed(r.handler.family) <==> k in r.handler.cache.entries))
  {
    match Prepare(h, data, env)
    case Failure(e) => Handled(h, Some(e))
    case Success(prepared) =>
      var key := prepared.0;
      var labelled := Labels(h.family, key);
      var acc := GetOrCreate(h.cache, Some(key), Some(labelled.1), nowMillis).value;
      GetOrCreateLooksUp(h.cache, key, labelled.1, nowMillis);
      var f1 := if acc.created then labelled.0 else h.family;
      AsWrittenResult(h, key, prepared.1, nowMillis, labelled, acc, f1);
      var observed := Record(f1, acc.value, prepared.1);
      Handled(h.(family := RemoveSeries(if observed.Success? then observed.value else f1, CallbackKeys(acc.removals)),
                 cache := acc.cache),
              if observed.Success? then None else Some(observed.error))
  }

  /** The as-written call once the record is prepared: the lookup, the supplier, the
      observation on the looked-up child, then the removal notices. */
  lemma AsWrittenResult(h: Handler, key: LabelKey, v: real, nowMillis: int, labelled: (Family, nat),
                        acc: Access<nat>, f1: Family)
    requires Tracked(h)
    requires labelled == Labels(h.family, key)
    requires LookedUp(h.cache, key, labelled.1, nowMillis, acc)
    requires f1 == if acc.created then labelled.0 else h.family
    ensures FamilyValid(f1) && acc.value in f1.children
    ensures var observed := Record(f1, acc.value, v);
            var r := Handled(h.(family := RemoveSeries(if observed.Success? then observed.value else f1,
                                                       CallbackKeys(acc.removals)),
                                cache := acc.cache),
                             if observed.Success? then None else Some(observed.error));
            var before := LookedUpChild(h, key, nowMillis);
            && Tracked(r.handler)
            && key in r.handler.cache.entries
            && (key in Exposed(r.handler.family) <==>
                  if Live(h.cache, key, nowMillis) then key in h.family.series else key !in h.cache.entries)
            && (r.failure.None? <==> Observe(h.family.spec, before, v).Success?)
            && (r.failure.Some? ==> Observe(h.family.spec, before, v) == Failure(r.failure.value))
            && (key in Exposed(r.handler.family) && r.failure.None? ==>
                  Exposed(r.handler.family)[key] == Observe(h.family.spec, before, v).value)
            && (key in Exposed(r.handler.family) && r.failure.Some? ==>
                  Exposed(r.handler.family)[key] == before)
            && (forall k :: k in Exposed(r.handler.family) && k != key ==>
                  k in Exposed(h.family) && Exposed(r.handler.family)[k] == Exposed(h.family)[k])
            && (forall k :: k in Exposed(h.family) && k != key ==>
                  (k in Exposed(r.handler.family) <==> k in r.handler.cache.entries))
  {
    AsWrittenKey(h, key, nowMillis, labelled, acc, f1);
    var observed := Record(f1, acc.value, v);
    var f2 := if observed.Success? then observed.value else f1;
    AsWrittenOutcome(h, key, nowMillis, labelled, acc, f1, f2);
  }

  /** The family the as-written supplier leaves, before the observation and the
      removal notices: see the three lemmas it combines. */
  lemma AsWrittenStep(h: Handler, key: LabelKey, nowMillis: int, labelled: (Family, nat), acc: Access<nat>, f1: Family)
    requires Tracked(h)
    requires labelled == Labels(h.family, key)
    requires LookedUp(h.cache, key, labelled.1, nowMillis, acc)
    requires f1 == if acc.created then labelled.0 else h.family
    ensures FamilyValid(f1) && f1.spec == h.family.spec
    ensures forall k :: k in acc.cache.entries ==> acc.cache.entries[k].value in f1.children
    ensures acc.value in f1.children && f1.children[acc.value] == LookedUpChild(h, key, nowMillis)
    ensures key in f1.series ==> f1.series[key] == acc.value
    ensures key in f1.series && key !in CallbackKeys(acc.removals) <==>
              if Live(h.cache, key, nowMillis) then key in h.family.series else key !in h.cache.entries
    ensures forall k :: k in h.family.series ==> k in f1.series
    ensures forall k :: k in f1.series && k != key ==>
              && k in h.family.series && f1.series[k] == h.family.series[k]
              && f1.children[f1.series[k]] == h.family.children[h.family.series[k]]
              && f1.series[k] != acc.value
              && (k in acc.cache.entries <==> k !in CallbackKeys(acc.removals))
              && (k in acc.cache.entries ==> acc.cache.entries[k].value == f1.series[k])
    ensures forall k1, k2 :: k1 in acc.cache.entries && k2 in acc.cache.entries && k1 != k2 ==>
              acc.cache.entries[k1].value != acc.cache.entries[k2].value
  {
    AsWrittenKey(h, key, nowMillis, labelled, acc, f1);
    AsWrittenOthers(h, key, nowMillis, labelled, acc, f1);
    AsWrittenDistinct(h, key, nowMillis, labelled, acc);
  }

  /** The looked-up tuple: the supplier's family holds the looked-up child, which is
      the one `LookedUpChild` names; the tuple's series, if any, is that child's; and
      it survives the notices exactly when it was live and exposed, or not cached. */
  lemma AsWrittenKey(h: Handler, key: LabelKey, nowMillis: int, labelled: (Family, nat), acc: Access<nat>, f1: Family)
    requires Tracked(h)
    requires labelled == Labels(h.family, key)
    requires LookedUp(h.cache, key, labelled.1, nowMillis, acc)
    requires f1 == if acc.created then labelled.0 else h.family
    ensures FamilyValid(f1) && f1.spec == h.family.spec
    ensures forall k :: k in acc.cache.entries ==> acc.cache.entries[k].value in f1.children
    ensures acc.value in f1.children && f1.children[acc.value] == LookedUpChild(h, key, nowMillis)
    ensures key in f1.series ==> f1.series[key] == acc.value
    ensures key in f1.series && key !in CallbackKeys(acc.removals) <==>
              if Live(h.cache, key, nowMillis) then key in h.family.series else key !in h.cache.entries
  {
    forall k | k in acc.cache.entries
      ensures acc.cache.entries[k].value in f1.children
    {
      if k != key {
        assert acc.cache.entries[k] == h.cache.entries[k];
      }
    }
    if Live(h.cache, key, nowMillis) {
      assert f1 == h.family;
      assert key in h.family.series ==> h.family.series[key] == h.cache.entries[key].value;
    } else if key in h.family.series {
      assert f1 == h.family && acc.value == h.family.series[key];
      assert key in h.cache.entries;
    } else {
      assert acc.value == h.family.nextId;
    }
  }

  /** The other tuples: the supplier adds no series but the looked-up one, no other
      series names the looked-up child, and each keeps its series through the notices
      exactly when the cache keeps it, under its own child. */
  lemma AsWrittenOthers(h: Handler, key: LabelKey, nowMillis: int, labelled: (Family, nat), acc: Access<nat>, f1: Family)
    requires Tracked(h)
    requires labelled == Labels(h.family, key)
    requires LookedUp(h.cache, key, labelled.1, nowMillis, acc)
    requires f1 == if acc.created then labelled.0 else h.family
    ensures forall k :: k in h.family.series ==> k in f1.series
    ensures forall k :: k in f1.series && k != key ==>
              && k in h.family.series && f1.series[k] == h.family.series[k]
              && f1.children[f1.series[k]] == h.family.children[h.family.series[k]]
              && f1.series[k] != acc.value
              && (k in acc.cache.entries <==> k !in CallbackKeys(acc.removals))
              && (k in acc.cache.entries ==> acc.cache.entries[k].value == f1.series[k])
  {
    forall k | k in f1.series && k != key
      ensures && k in h.family.series && f1.series[k] == h.family.series[k]
              && f1.children[f1.series[k]] == h.family.children[h.family.series[k]]
              && f1.series[k] != acc.value
              && (k in acc.cache.entries <==> k !in CallbackKeys(acc.removals))
              && (k in acc.cache.entries ==> acc.cache.entries[k].value == f1.series[k])
    {
      assert k in h.family.series;
      assert k in h.cache.entries && h.cache.entries[k].value == h.family.series[k];
      if Live(h.cache, key, nowMillis) {
        assert acc.value == h.cache.entries[key].value;
      } else if key in h.family.series {
        assert acc.value == h.family.series[key];
      } else {
        assert acc.value == h.family.nextId;
      }
    }
  }

  /** The lookup stores no child under two tuples: the looked-up tuple gets its own
      cached child, its own exposed child, or a fresh one. */
  lemma AsWrittenDistinct(h: Handler, key: LabelKey, nowMillis: int, labelled: (Family, nat), acc: Access<nat>)
    requires Tracked(h)
    requires labelled == Labels(h.family, key)
    requires LookedUp(h.cache, key, labelled.1, nowMillis, acc)
    ensures forall k1, k2 :: k1 in acc.cache.entries && k2 in acc.cache.entries && k1 != k2 ==>
              acc.cache.entries[k1].value != acc.cache.entries[k2].value
  {
    forall k | k in acc.cache.entries && k != key
      ensures acc.cache.entries[k].value != acc.value
    {
      assert acc.cache.entries[k] == h.cache.entries[k];
      if Live(h.cache, key, nowMillis) {
        assert acc.value == h.cache.entries[key].value;
      } else if key in h.family.series {
        assert key in h.cache.entries && acc.value == h.cache.entries[key].value;
      } else {
        assert acc.value == h.family.nextId;
      }
    }
  }

  /** The family after the observation `f2` (which differs from the supplier's family
      `f1` in the looked-up child at most) and the removal notices, together with the
      cache after the lookup, is tracked; it exposes the looked-up tuple exactly when
      the tuple was live and exposed, or not cached, and every other tuple as before,
      while the cache holds it. */
  lemma AsWrittenOutcome(h: Handler, key: LabelKey, nowMillis: int, labelled: (Family, nat), acc: Access<nat>,
                         f1: Family, f2: Family)
    requires Tracked(h)
    requires labelled == Labels(h.family, key)
    requires LookedUp(h.cache, key, labelled.1, nowMillis, acc)
    requires f1 == if acc.created then labelled.0 else h.family
    requires FamilyValid(f2) && f2.spec == f1.spec && f2.series == f1.series
    requires f2.children.Keys == f1.children.Keys
    requires forall id :: id in f1.children && id != acc.value ==> f2.children[id] == f1.children[id]
    ensures var w := h.(family := RemoveSeries(f2, CallbackKeys(acc.removals)), cache := acc.cache);
            && Tracked(w)
            && key in w.cache.entries
            && (key in Exposed(w.family) <==>
                  if Live(h.cache, key, nowMillis) then key in h.family.series else key !in h.cache.entries)
            && (key in Exposed(w.family) ==> Exposed(w.family)[key] == f2.children[acc.value])
            && (forall k :: k in Exposed(w.family) && k != key ==>
                  k in Exposed(h.family) && Exposed(w.family)[k] == Exposed(h.family)[k])
            && (forall k :: k in Exposed(h.family) && k != key ==>
                  (k in Exposed(w.family) <==> k in w.cache.entries))
  {
    AsWrittenStep(h, key, nowMillis, labelled, acc, f1);
    var w := h.(family := RemoveSeries(f2, CallbackKeys(acc.removals)), cache := acc.cache);
    forall k | k in w.family.series
      ensures k in w.cache.entries && w.cache.entries[k].value == w.family.series[k]
    {
      assert k in f1.series && w.family.series[k] == f1.series[k];
    }
    forall k | k in Exposed(w.family) && k != key
      ensures k in Exposed(h.family) && Exposed(w.family)[k] == Exposed(h.family)[k]
    {
      assert f2.children[f1.series[k]] == f1.children[f1.series[k]];
    }
  }

  /** `handle(data)` with the removal notices of the lookup delivered before the
      supplier runs: a tuple that is being created never has a series left, so it
      always starts a new child, which the family exposes. */
  function Handle(h: Handler, data: map<string, string>, nowMillis: int, env: Environment): (r: Handled)
    requires Consistent(h)
    ensures Consistent(r.handler)
    ensures Prepare(h, data, env).Failure? ==> r == Handled(h, Some(Prepare(h, data, env).error))
    ensures Prepare(h, data, env).Success? ==>
              var key := Prepare(h, data, env).value.0;
              var v := Prepare(h, data, env).value.1;
              var before := if Live(h.cache, key, nowMillis) then h.family.children[h.family.series[key]]
                            else NewChild(h.family.spec);
              && key in Exposed(r.handler.family)
              && (r.failure.None? <==> Observe(h.family.spec, before, v).Success?)
              && (r.failure.Some? ==> Observe(h.family.spec, before, v) == Failure(r.failure.value))
              && (r.failure.None? ==> Exposed(r.handler.family)[key] == Observe(h.family.spec, before, v).value)
              && (r.failure.Some? ==> Exposed(r.handler.family)[key] == before)
    ensures Prepare(h, data, env).Success? ==>
              var key := Prepare(h, data, env).value.0;
              forall k :: k in Exposed(r.handler.family) && k != key ==>
                k in Exposed(h.family) && Exposed(r.handler.family)[k] == Exposed(h.family)[k]
  {
    match Prepare(h, data, env)
    case Failure(e) => Handled(h, Some(e))
    case Success(prepared) =>
      var key := prepared.0;
      var acc := GetOrCreate(h.cache, Some(key), Some(h.family.nextId), nowMillis).value;
      GetOrCreateLooksUp(h.cache, key, h.family.nextId, nowMillis);
      var f1 := RemoveSeries(h.family, CallbackKeys(acc.removals));
      var f2 := if acc.created then Labels(f1, key).0 else f1;
      HandleStep(h, key, nowMillis, acc, f1, f2);
      match Record(f2, acc.value, prepared.1)
      case Failure(e) =>
        Handled(h.(family := f2, cache := acc.cache), Some(e))
      case Success(f3) =>
        RecordKeepsOthers(f2, key, acc.value, prepared.1);
        Handled(h.(family := f3, cache := acc.cache), None)
  }

  /** Recording an observation for one tuple leaves every other tuple's child alone. */
  lemma RecordKeepsOthers(f: Family, key: LabelKey, id: nat, v: real)
    requires FamilyValid(f) && key in f.series && f.series[key] == id
    requires Record(f, id, v).Success?
    ensures Record(f, id, v).value.series == f.series
    ensures forall k :: k in f.series && k != key ==>
              Record(f, id, v).value.children[f.series[k]] == f.children[f.series[k]]
  {
  }

  /** The family after the removals and the supplier agrees with the cache after the
      lookup. */
  lemma HandleStep(h: Handler, key: LabelKey, nowMillis: int, acc: Access<nat>, f1: Family, f2: Family)
    requires Consistent(h)
    requires LookedUp(h.cache, key, h.family.nextId, nowMillis, acc)
    requires f1 == RemoveSeries(h.family, CallbackKeys(acc.removals))
    requires f2 == if acc.created then Labels(f1, key).0 else f1
    ensures FamilyValid(f2) && f2.spec == h.family.spec
    ensures f2.series.Keys == acc.cache.entries.Keys
    ensures forall k :: k in acc.cache.entries ==> acc.cache.entries[k].value == f2.series[k]
    ensures acc.value in f2.children
    ensures Live(h.cache, key, nowMillis) ==> f2.children[acc.value] == h.family.children[h.family.series[key]]
    ensures !Live(h.cache, key, nowMillis) ==> f2.children[acc.value] == NewChild(h.family.spec)
    ensures forall k :: k in f2.series && k != key ==>
              k in h.family.series && f2.series[k] == h.family.series[k]
              && f2.children[f2.series[k]] == h.family.children[h.family.series[k]]
  {
    HandleStepKey(h, key, nowMillis, acc, f1);
    HandleStepOthers(h, key, nowMillis, acc, f1, f2);
  }

  /** The tuple looked up keeps its series exactly when its entry was live. */
  lemma HandleStepKey(h: Handler, key: LabelKey, nowMillis: int, acc: Access<nat>, f1: Family)
    requires Consistent(h)
    requires LookedUp(h.cache, key, h.family.nextId, nowMillis, acc)
    requires f1 == RemoveSeries(h.family, CallbackKeys(acc.removals))
    ensures FamilyValid(f1) && f1.nextId == h.family.nextId && f1.children == h.family.children
    ensures key in f1.series <==> Live(h.cache, key, nowMillis)
    ensures key in f1.series ==> f1.series[key] == acc.value
  {
  }

  /** The other tuples keep their series exactly when the cache keeps them. */
  lemma HandleStepOthers(h: Handler, key: LabelKey, nowMillis: int, acc: Access<nat>, f1: Family, f2: Family)
    requires Consistent(h)
    requires LookedUp(h.cache, key, h.family.nextId, nowMillis, acc)
    requires f1 == RemoveSeries(h.family, CallbackKeys(acc.removals))
    requires FamilyValid(f1) && f1.nextId == h.family.nextId && f1.children == h.family.children
    requires key in f1.series <==> Live(h.cache, key, nowMillis)
    requires key in f1.series ==> f1.series[key] == acc.value
    requires f2 == if acc.created then Labels(f1, key).0 else f1
    ensures FamilyValid(f2) && f2.spec == h.family.spec
    ensures f2.series.Keys == acc.cache.entries.Keys
    ensures forall k :: k in acc.cache.entries ==> acc.cache.entries[k].value == f2.series[k]
    ensures acc.value in f2.children
    ensures Live(h.cache, key, nowMillis) ==> f2.children[acc.value] == h.family.children[h.family.series[key]]
    ensures !Live(h.cache, key, nowMillis) ==> f2.children[acc.value] == NewChild(h.family.spec)
    ensures forall k :: k in f2.series && k != key ==>
              k in h.family.series && f2.series[k] == h.family.series[k]
              && f2.children[f2.series[k]] == h.family.children[h.family.series[k]]
  {
    SurvivorsAgree(h, key, nowMillis, acc, f1);
    AddIfCreated(key, acc.created, acc.value, acc.cache.entries, f1, f2);
  }

  /** Adding the looked-up tuple to a family that already agrees with the cache on
      every other tuple makes it agree on all of them. */
  lemma AddIfCreated(key: LabelKey, created: bool, id: nat, entries: map<LabelKey, Entry<nat>>, f1: Family, f2: Family)
    requires FamilyValid(f1)
    requires key in entries && entries[key].value == id
    requires forall k :: k != key ==> (k in f1.series <==> k in entries)
    requires forall k :: k != key && k in f1.series ==> f1.series[k] == entries[k].value
    requires key in f1.series <==> !created
    requires key in f1.series ==> f1.series[key] == id
    requires created ==> id == f1.nextId
    requires f2 == if created then Labels(f1, key).0 else f1
    ensures FamilyValid(f2) && f2.spec == f1.spec
    ensures f2.series.Keys == entries.Keys
    ensures forall k :: k in entries ==> entries[k].value == f2.series[k]
    ensures id in f2.children
    ensures !created ==> f2.children[id] == f1.children[id]
    ensures created ==> f2.children[id] == NewChild(f1.spec)
    ensures forall k :: k in f2.series && k != key ==>
              k in f1.series && f2.series[k] == f1.series[k] && f2.children[f2.series[k]] == f1.children[f1.series[k]]
  {
    if created {
      assert f2.series == f1.series[key := id];
    }
  }

  /** Apart from the tuple looked up, the family keeps a series exactly for the
      tuples the cache keeps. */
  lemma SurvivorsAgree(h: Handler, key: LabelKey, nowMillis: int, acc: Access<nat>, f1: Family)
    requires Consistent(h)
    requires LookedUp(h.cache, key, h.family.nextId, nowMillis, acc)
    requires f1 == RemoveSeries(h.family, CallbackKeys(acc.removals))
    ensures forall k :: k != key ==> (k in f1.series <==> k in acc.cache.entries)
    ensures forall k :: k != key && k in f1.series ==> f1.series[k] == acc.cache.entries[k].value
  {
    var removed := RemovedKeys(acc.removals);
    assert CallbackKeys(acc.removals) == removed;
    forall k | k != key
      ensures k in f1.series <==> k in acc.cache.entries
    {
      assert k in f1.series <==> k in h.cache.entries && k !in removed;
    }
  }

  /** Every tuple the cache drops has its series removed, and nothing else is
      removed: after a call, the exposed tuples are exactly the cached ones. */
  lemma ExposedAreCached(h: Handler, data: map<string, string>, nowMillis: int, env: Environment)
    requires Consistent(h)
    ensures var r := Handle(h, data, nowMillis, env).handler;
            Exposed(r.family).Keys == r.cache.entries.Keys
  {
  }

  // ------------------------------------------------------------------ as written against corrected

  /** Two calls that leave the same scrape, the same cache and the same exception. */
  ghost predicate SameOutcome(a: Handled, b: Handled)
    requires FamilyValid(a.handler.family) && FamilyValid(b.handler.family)
  {
    && a.failure == b.failure
    && a.handler.cache == b.handler.cache
    && Exposed(a.handler.family) == Exposed(b.handler.family)
  }

  /** The record's label tuple has a cache entry that has expired. */
  ghost predicate HitsExpiredTuple(h: Handler, data: map<string, string>, nowMillis: int, env: Environment) {
    && Prepare(h, data, env).Success?
    && Prepare(h, data, env).value.0 in h.cache.entries
    && !Live(h.cache, Prepare(h, data, env).value.0, nowMillis)
  }

  /** The discrepancy is exactly the expired tuple: on a handler whose family and cache
      agree, the as-written call ends as the corrected one does unless the record hits
      a tuple whose entry has expired, and then the two differ. */
  lemma AsWrittenDiffersOnlyOnExpiry(h: Handler, data: map<string, string>, nowMillis: int, env: Environment)
    requires Consistent(h)
    ensures SameOutcome(HandleAsWritten(h, data, nowMillis, env), Handle(h, data, nowMillis, env))
            <==> !HitsExpiredTuple(h, data, nowMillis, env)
  {
    var aw := HandleAsWritten(h, data, nowMillis, env);
    var c := Handle(h, data, nowMillis, env);
    if Prepare(h, data, env).Success? {
      var key := Prepare(h, data, env).value.0;
      if key in h.cache.entries && !Live(h.cache, key, nowMillis) {
        assert key !in Exposed(aw.handler.family) && key in Exposed(c.handler.family);
      } else {
        SameLookup(h, key, nowMillis);
        assert aw.handler.cache == c.handler.cache;
        SameChild(h, data, nowMillis, env);
        var ea := Exposed(aw.handler.family);
        var ec := Exposed(c.handler.family);
        assert key in ea && key in ec && ea[key] == ec[key];
        ScrapesAgree(key, ea, ec, Exposed(h.family), aw.handler.cache.entries.Keys);
      }
    }
  }

  /** Unless the tuple's entry has expired, both handlers make the same cache lookup. */
  lemma SameLookup(h: Handler, key: LabelKey, nowMillis: int)
    requires Consistent(h)
    requires !(key in h.cache.entries && !Live(h.cache, key, nowMillis))
    ensures GetOrCreate(h.cache, Some(key), Some(Labels(h.family, key).1), nowMillis)
            == GetOrCreate(h.cache, Some(key), Some(h.family.nextId), nowMillis)
  {
    if Live(h.cache, key, nowMillis) {
      CreatorUnusedWhenLive(h.cache, key, Labels(h.family, key).1, h.family.nextId, nowMillis);
    } else {
      assert key !in h.family.series;
    }
  }

  /** Two scrapes that show the record's tuple alike, show every other tuple as the
      scrape before did, and of the tuples shown before keep exactly the cached ones
      (the second keeping only cached tuples), are the same scrape. */
  lemma ScrapesAgree(key: LabelKey, ea: map<LabelKey, Child>, ec: map<LabelKey, Child>,
                     eh: map<LabelKey, Child>, cached: set<LabelKey>)
    requires ec.Keys == cached
    requires key in ea && key in ec && ea[key] == ec[key]
    requires forall k :: k in ea && k != key ==> k in eh && ea[k] == eh[k]
    requires forall k :: k in ec && k != key ==> k in eh && ec[k] == eh[k]
    requires forall k :: k in eh && k != key ==> (k in ea <==> k in cached)
    ensures ea == ec
  {
  }

  /** Both handlers observe the same child for the record's tuple. */
  lemma SameChild(h: Handler, data: map<string, string>, nowMillis: int, env: Environment)
    requires Consistent(h)
    requires Prepare(h, data, env).Success?
    requires !HitsExpiredTuple(h, data, nowMillis, env)
    ensures var key := Prepare(h, data, env).value.0;
            LookedUpChild(h, key, nowMillis)
            == if Live(h.cache, key, nowMillis) then h.family.children[h.family.series[key]] else NewChild(h.family.spec)
    ensures HandleAsWritten(h, data, nowMillis, env).failure == Handle(h, data, nowMillis, env).failure
  {
  }

  // ------------------------------------------------------------------ examples

  /** A gauge labelled, as every metric the metrics manager builds, by the record's
      `path`; its only series, for `/f`, was last touched at time 0, and its label
      sets expire after one second. */
  function ExpiringGauge(cfg: MetricConfig): (h: Handler)
    ensures Consistent(h)
  {
    var path := EmptyLabelConfig.(name := Some("path"), sourceField := Some("path"), action := Some("NO_OP"));
    var spec := FamilySpec(GaugeKind, Some("g"), Some("g"), [Some("path")], [], map[]);
    Handler(cfg, [path], Family(spec, map[["/f"] := 0], map[0 := GaugeChild(1.0)], 1),
            LabelCache(0, 1000, [["/f"]], map[["/f"] := Entry(0, 0)]))
  }

  /** A line from `/f` one second later: as written, the tuple `["/f"]` is cached
      again but its series is gone from the family, so the observation is never
      exposed; with the notices delivered first, the tuple is exposed with a new
      child holding the observation. */
  lemma ExpiredTupleLostAsWritten(cfg: MetricConfig, env: Environment)
    requires cfg.valueField.None?
    requires KnownActions(env.actionOf)
    ensures var w := HandleAsWritten(ExpiringGauge(cfg), map["path" := "/f"], 1000, env).handler;
            && ["/f"] in w.cache.entries
            && ["/f"] !in Exposed(w.family)
            && !Consistent(w)
    ensures var c := Handle(ExpiringGauge(cfg), map["path" := "/f"], 1000, env).handler;
            && ["/f"] in Exposed(c.family)
            && Exposed(c.family)[["/f"]] == GaugeChild(1.0)
  {
    var h := ExpiringGauge(cfg);
    var data := map["path" := "/f"];
    NoOpLabelTakesField(data, h.labels[0], env.actionOf, env.engines);
    var labelled := ProcessLabels(data, h.labels, env.actionOf, env.engines);
    assert labelled.Success? && |labelled.value| == 1 && labelled.value[0] == "/f";
    assert labelled.value == ["/f"];
    assert Prepare(h, data, env) == Success((["/f"], 1.0));
    assert ["/f"] in h.cache.entries && !Live(h.cache, ["/f"], 1000);
  }

  /** Buckets 0.1, 0.5 and 1.0: observing 0.2 leaves the 0.1 bucket at 0 and puts
      the 0.5, 1.0 and +Inf buckets at 1, with sum 0.2. */
  lemma HistogramBucketExample(spec: FamilySpec)
    requires spec.kind == HistogramKind && spec.bounds == [0.1, 0.5, 1.0]
    ensures var c := Observe(spec, NewChild(spec), 0.2).value;
            c.cumulative == [0, 1, 1] && c.count == 1 && c.sum == 0.2
  {
    var c := Observe(spec, NewChild(spec), 0.2).value;
    assert c.cumulative[0] == 0 && c.cumulative[1] == 1 && c.cumulative[2] == 1;
  }
}

=== FILE: label_cache.dfy ===
/** `LabelCache`: a store holding at most one value per label tuple, with an optional
    size bound and an optional idle-expiry bound (0 disables each), whose removal
    callback is told about entries removed for expiry or size.

    The Caffeine cache behind it is reduced to one deterministic policy, applied
    synchronously inside each `getOrCreate`: entries idle for at least the expiry
    time are removed first (an expired entry counts as absent, so its key is
    rebuilt), and after the access the least recently used entries are removed
    until the size bound holds.  Choosing the least recently used entry as the
    size victim is a modelling choice; Caffeine's own victim selection is not
    modelled. */
module LabelCaches {
  import opened Base

  /** An ordered tuple of label values. */
  type LabelKey = seq<string>

  datatype Entry<T> = Entry(value: T, lastAccessMillis: int)

  /** `maxSize` 0 means no size bound and `expireMillis` 0 no expiry. `recency`
      lists the keys from least to most recently used. */
  datatype LabelCache<T> = LabelCache(
    maxSize: nat,
    expireMillis: nat,
    recency: seq<LabelKey>,
    entries: map<LabelKey, Entry<T>>)

  ghost predicate Valid<T>(c: LabelCache<T>) {
    && Distinct(c.recency)
    && (forall k :: k in c.entries <==> k in c.recency)
  }

  /** Same bounds. */
  predicate SameBounds<T>(a: LabelCache<T>, b: LabelCache<T>) {
    a.maxSize == b.maxSize && a.expireMillis == b.expireMillis
  }

  /** `new LabelCache(maxSize, expirationSeconds, callback)`: a size bound only for a
      positive `maxSize`, an expiry only for a positive `expirationSeconds`. */
  function NewLabelCache<T>(maxSize: Int32, expirationSeconds: Int32): (r: LabelCache<T>)
    ensures Valid(r) && r.entries == map[]
    ensures r.maxSize > 0 <==> maxSize > 0
    ensures r.maxSize > 0 ==> r.maxSize == maxSize
    ensures r.expireMillis > 0 <==> expirationSeconds > 0
    ensures r.expireMillis > 0 ==> r.expireMillis == expirationSeconds * 1000
  {
    LabelCache(if maxSize > 0 then maxSize else 0,
               if expirationSeconds > 0 then expirationSeconds * 1000 else 0,
               [], map[])
  }

  /** An entry has expired when an expiry is set and it has not been accessed for at
      least that long. */
  predicate IsExpired<T>(c: LabelCache<T>, e: Entry<T>, nowMillis: int) {
    c.expireMillis > 0 && nowMillis - e.lastAccessMillis >= c.expireMillis
  }

  /** `k` is present and not expired. */
  predicate Live<T>(c: LabelCache<T>, k: LabelKey, nowMillis: int) {
    k in c.entries && !IsExpired(c, c.entries[k], nowMillis)
  }

  // ------------------------------------------------------------------ removals

  /** Why the cache dropped an entry (Caffeine's `RemovalCause`). */
  datatype RemovalCause = Explicit | Replaced | Collected | Expired | Size

  /** Only removals for expiry or size reach the callback. */
  predicate NotifiesCallback(cause: RemovalCause) {
    cause == Expired || cause == Size
  }

  datatype Removal = Removal(key: LabelKey, cause: RemovalCause)

  /** The keys of a sequence of removals, in order. */
  function RemovedKeys(rs: seq<Removal>): (r: seq<LabelKey>)
    ensures |r| == |rs|
    ensures forall i :: 0 <= i < |rs| ==> r[i] == rs[i].key
  {
    seq(|rs|, i requires 0 <= i < |rs| => rs[i].key)
  }

  /** The keys handed to the removal callback for a sequence of removals, in order. */
  function CallbackKeys(rs: seq<Removal>): (r: seq<LabelKey>)
    ensures |r| <= |rs|
  {
    if |rs| == 0 then []
    else if NotifiesCallback(rs[0].cause) then [rs[0].key] + CallbackKeys(rs[1..])
    else CallbackKeys(rs[1..])
  }

  /** The removal callback fires for expiry and size removals only, once per removal:
      it receives every removed key when all removals are for expiry or size, and
      none when none is. */
  lemma {:induction false} CallbackOnlyForExpiryOrSize(rs: seq<Removal>)
    ensures (forall i :: 0 <= i < |rs| ==> NotifiesCallback(rs[i].cause)) ==> CallbackKeys(rs) == RemovedKeys(rs)
    ensures (forall i :: 0 <= i < |rs| ==> !NotifiesCallback(rs[i].cause)) ==> CallbackKeys(rs) == []
  {
    if |rs| > 0 {
      CallbackOnlyForExpiryOrSize(rs[1..]);
      assert RemovedKeys(rs) == [rs[0].key] + RemovedKeys(rs[1..]);
    }
  }

  /** The removals that reach the callback, in their original order. */
  function Notifying(rs: seq<Removal>): (r: seq<Removal>)
    ensures forall x :: x in r <==> x in rs && NotifiesCallback(x.cause)
    decreases |rs|
  {
    if |rs| == 0 then []
    else
      assert forall x :: x in rs[1..] ==> x in rs;
      if NotifiesCallback(rs[0].cause) then [rs[0]] + Notifying(rs[1..])
      else Notifying(rs[1..])
  }

  /** The callback is called once for each expiry or size removal, in order, with
      that removal's key, and for no other removal. */
  lemma {:induction false} CallbackKeysOfNotifying(rs: seq<Removal>)
    ensures CallbackKeys(rs) == RemovedKeys(Notifying(rs))
    decreases |rs|
  {
    if |rs| > 0 {
      CallbackKeysOfNotifying(rs[1..]);
      var rest := Notifying(rs[1..]);
      if NotifiesCallback(rs[0].cause) {
        assert RemovedKeys([rs[0]] + rest) == [rs[0].key] + RemovedKeys(rest);
      }
    }
  }

  /** A key reaches the callback exactly when some expiry or size removal dropped it. */
  lemma CallbackKeyIffNotifyingRemoval(rs: seq<Removal>, k: LabelKey)
    ensures k in CallbackKeys(rs) <==>
              exists i :: 0 <= i < |rs| && rs[i].key == k && NotifiesCallback(rs[i].cause)
  {
    CallbackKeysOfNotifying(rs);
    var n := Notifying(rs);
    if k in CallbackKeys(rs) {
      var j :| 0 <= j < |n| && RemovedKeys(n)[j] == k;
      assert n[j] in n;
      var i :| 0 <= i < |rs| && rs[i] == n[j];
    }
    if exists i :: 0 <= i < |rs| && rs[i].key == k && NotifiesCallback(rs[i].cause) {
      var i :| 0 <= i < |rs| && rs[i].key == k && NotifiesCallback(rs[i].cause);
      assert rs[i] in n;
      var j :| 0 <= j < |n| && n[j] == rs[i];
      assert RemovedKeys(n)[j] == k;
    }
  }

  function Tag(keys: seq<LabelKey>, cause: RemovalCause): (r: seq<Removal>)
    ensures |r| == |keys|
    ensures forall i :: 0 <= i < |keys| ==> r[i] == Removal(keys[i], cause)
    ensures RemovedKeys(r) == keys
  {
    seq(|keys|, i requires 0 <= i < |keys| => Removal(keys[i], cause))
  }

  // --------------------------------------------------------------- the policy

  /** Drops every expired entry; returns the cache left and the expired keys, least
      recently used first. */
  function ExpireIdle<T>(c: LabelCache<T>, nowMillis: int): (r: (LabelCache<T>, seq<LabelKey>))
    requires Valid(c)
    ensures Valid(r.0) && SameBounds(r.0, c)
    ensures forall k :: k in r.0.entries <==> Live(c, k, nowMillis)
    ensures forall k :: k in r.0.entries ==> k in c.entries && r.0.entries[k] == c.entries[k]
    ensures forall k :: k in r.1 <==> k in c.entries && !Live(c, k, nowMillis)
    ensures Distinct(r.1)
    ensures c.expireMillis == 0 ==> r.0 == c && r.1 == []
  {
    if c.expireMillis == 0 then (c, [])
    else
      var live := Filter(c.recency, k => Live(c, k, nowMillis));
      var stale := Filter(c.recency, k => !Live(c, k, nowMillis));
      var entries := map k | k in c.entries && Live(c, k, nowMillis) :: c.entries[k];
      (c.(recency := live, entries := entries), stale)
  }

  /** Stores `v` under `k` as the most recently used entry. */
  function Touch<T>(c: LabelCache<T>, k: LabelKey, v: T, nowMillis: int): (r: LabelCache<T>)
    requires Valid(c)
    ensures Valid(r) && SameBounds(r, c)
    ensures r.entries == c.entries[k := Entry(v, nowMillis)]
    ensures |r.recency| > 0 && r.recency[|r.recency| - 1] == k
  {
    var order := Without(c.recency, k);
    DistinctCons(k, []);
    assert Distinct(order + [k]) by {
      forall i, j | 0 <= i < j < |order + [k]|
        ensures (order + [k])[i] != (order + [k])[j]
      {
        if j == |order| {
          assert (order + [k])[i] == order[i];
          assert order[i] in order;
        }
      }
    }
    c.(recency := order + [k], entries := c.entries[k := Entry(v, nowMillis)])
  }

  /** Splitting a sequence without repetitions gives two such sequences with no
      element in common. */
  lemma SplitDistinct(s: seq<LabelKey>, n: nat)
    requires Distinct(s) && n <= |s|
    ensures Distinct(s[..n]) && Distinct(s[n..])
    ensures forall x :: x in s[..n] ==> x !in s[n..]
    ensures forall x :: x in s <==> x in s[..n] || x in s[n..]
  {
    assert s == s[..n] + s[n..];
    forall x | x in s[..n]
      ensures x !in s[n..]
    {
      var i :| 0 <= i < n && s[..n][i] == x;
    }
  }

  /** Removes least recently used entries until the size bound holds; returns the cache
      left and the removed keys. The most recently used entry is never removed. */
  function TrimToSize<T>(c: LabelCache<T>): (r: (LabelCache<T>, seq<LabelKey>))
    requires Valid(c)
    ensures Valid(r.0) && SameBounds(r.0, c)
    ensures c.maxSize > 0 ==> |r.0.entries| <= c.maxSize
    ensures c.maxSize == 0 ==> r.0 == c && r.1 == []
    ensures |r.1| <= |c.recency| && r.1 == c.recency[..|r.1|] && r.0.recency == c.recency[|r.1|..]
    ensures forall k :: k in r.0.entries ==> k in c.entries && r.0.entries[k] == c.entries[k]
    ensures forall k :: k in c.entries ==> (k in r.0.entries <==> k !in r.1)
    ensures Distinct(r.1)
    ensures |c.recency| > 0 && c.maxSize > 0 ==> c.recency[|c.recency| - 1] !in r.1
  {
    if c.maxSize == 0 || |c.recency| <= c.maxSize then
      KeysOfDistinctSeq(c.recency, c.entries);
      (c, [])
    else
      var excess := |c.recency| - c.maxSize;
      var victims := c.recency[..excess];
      var kept := c.recency[excess..];
      SplitDistinct(c.recency, excess);
      var entries := map k | k in c.entries && k in kept :: c.entries[k];
      KeysOfDistinctSeq(kept, entries);
      assert c.recency[|c.recency| - 1] == kept[|kept| - 1];
      (c.(recency := kept, entries := entries), victims)
  }

  // -------------------------------------------------------------- getOrCreate

  datatype CacheError = NullKey | NullCreator

  /** The outcome of one `getOrCreate`: the value returned, the cache afterwards, the
      removals made during the call and whether the creator ran. */
  datatype Access<T> = Access(value: T, cache: LabelCache<T>, removals: seq<Removal>, created: bool)

  /** `getOrCreate(labelValues, creator)` at time `nowMillis`. `creator` stands for the
      value the supplier would build, `None` for a null supplier. A null key is
      rejected at once; a null supplier only when it would be called, that is when
      the key has no live entry, and the cache is then left as it was. */
  function GetOrCreate<T>(c: LabelCache<T>, key: Option<LabelKey>, creator: Option<T>, nowMillis: int)
    : (r: Result<Access<T>, CacheError>)
    requires Valid(c)
    ensures key.None? ==> r == Failure(NullKey)
    ensures key.Some? && creator.None? && !Live(c, key.value, nowMillis) ==> r == Failure(NullCreator)
    ensures key.Some? && (creator.Some? || Live(c, key.value, nowMillis)) ==> r.Success?
    ensures r.Success? ==> Valid(r.value.cache) && SameBounds(r.value.cache, c)
    // a live entry is returned as it is; otherwise the creator's value is stored and returned
    ensures r.Success? && Live(c, key.value, nowMillis) ==>
              r.value.value == c.entries[key.value].value && !r.value.created
    ensures r.Success? && !Live(c, key.value, nowMillis) ==>
              r.value.value == creator.value && r.value.created
    ensures r.Success? ==> key.value in r.value.cache.entries
                           && r.value.cache.entries[key.value] == Entry(r.value.value, nowMillis)
    // the bounds hold afterwards
    ensures r.Success? && c.maxSize > 0 ==> |r.value.cache.entries| <= c.maxSize
    ensures r.Success? ==> forall k :: k in r.value.cache.entries ==>
                             !IsExpired(c, r.value.cache.entries[k], nowMillis)
    // every other key is kept untouched or removed, and every removal reaches the callback once
    ensures r.Success? ==> forall k :: k in r.value.cache.entries && k != key.value ==>
                             k in c.entries && r.value.cache.entries[k] == c.entries[k]
    ensures r.Success? ==> forall k :: k in c.entries && k != key.value ==>
                             (k in r.value.cache.entries <==> k !in RemovedKeys(r.value.removals))
    ensures r.Success? ==> forall k :: k in RemovedKeys(r.value.removals) ==> k in c.entries
    ensures r.Success? ==> (key.value in RemovedKeys(r.value.removals) <==>
                              key.value in c.entries && !Live(c, key.value, nowMillis))
    ensures r.Success? ==> Distinct(RemovedKeys(r.value.removals))
    ensures r.Success? ==> CallbackKeys(r.value.removals) == RemovedKeys(r.value.removals)
    // with both bounds disabled nothing is ever removed
    ensures r.Success? && c.maxSize == 0 && c.expireMillis == 0 ==> r.value.removals == []
  {
    if key.None? then Failure(NullKey)
    else if creator.None? && !Live(c, key.value, nowMillis) then Failure(NullCreator)
    else
      AccessOfKey(c, key.value, creator, nowMillis);
      AccessOfOtherKeys(c, key.value, creator, nowMillis);
      AccessRemovals(c, key.value, creator, nowMillis);
      var a := AccessOf(c, key.value, creator, nowMillis);
      Success(a)
  }

  /** The facts about one successful access that callers build on, gathered in one
      place. */
  ghost predicate LookedUp<T>(c: LabelCache<T>, key: LabelKey, creatorValue: T, nowMillis: int, a: Access<T>) {
    && Valid(a.cache) && SameBounds(a.cache, c)
    && (Live(c, key, nowMillis) ==> a.value == c.entries[key].value && !a.created)
    && (!Live(c, key, nowMillis) ==> a.value == creatorValue && a.created)
    && key in a.cache.entries && a.cache.entries[key] == Entry(a.value, nowMillis)
    && (forall k :: k in a.cache.entries && k != key ==> k in c.entries && a.cache.entries[k] == c.entries[k])
    && (forall k :: k in c.entries && k != key ==> (k in a.cache.entries <==> k !in RemovedKeys(a.removals)))
    && (key in RemovedKeys(a.removals) <==> key in c.entries && !Live(c, key, nowMillis))
    && CallbackKeys(a.removals) == RemovedKeys(a.removals)
  }

  lemma GetOrCreateLooksUp<T>(c: LabelCache<T>, key: LabelKey, v: T, nowMillis: int)
    requires Valid(c)
    ensures GetOrCreate(c, Some(key), Some(v), nowMillis).Success?
    ensures LookedUp(c, key, v, nowMillis, GetOrCreate(c, Some(key), Some(v), nowMillis).value)
  {
  }

  /** The supplier is not called for a key with a live entry, so what it would build
      makes no difference. */
  lemma CreatorUnusedWhenLive<T>(c: LabelCache<T>, key: LabelKey, a: T, b: T, nowMillis: int)
    requires Valid(c) && Live(c, key, nowMillis)
    ensures GetOrCreate(c, Some(key), Some(a), nowMillis) == GetOrCreate(c, Some(key), Some(b), nowMillis)
  {
  }

  /** One access to `k` whose supplier would build `creator`: expire, look up, store as most
      recently used, trim. */
  function AccessOf<T>(c: LabelCache<T>, k: LabelKey, creator: Option<T>, nowMillis: int): (a: Access<T>)
    requires Valid(c)
    requires Live(c, k, nowMillis) || creator.Some?
    ensures Valid(a.cache) && SameBounds(a.cache, c)
  {
    var expired := ExpireIdle(c, nowMillis);
    var hit := k in expired.0.entries;
    var value := if hit then expired.0.entries[k].value else creator.value;
    var trim := TrimToSize(Touch(expired.0, k, value, nowMillis));
    Access(value, trim.0, Tag(expired.1, Expired) + Tag(trim.1, Size), !hit)
  }

  lemma AccessOfKey<T>(c: LabelCache<T>, k: LabelKey, creator: Option<T>, nowMillis: int)
    requires Valid(c)
    requires Live(c, k, nowMillis) || creator.Some?
    ensures var a := AccessOf(c, k, creator, nowMillis);
            && (Live(c, k, nowMillis) ==> a.value == c.entries[k].value && !a.created)
            && (!Live(c, k, nowMillis) ==> a.value == creator.value && a.created)
            && k in a.cache.entries && a.cache.entries[k] == Entry(a.value, nowMillis)
            && (c.maxSize > 0 ==> |a.cache.entries| <= c.maxSize)
  {
    var expired := ExpireIdle(c, nowMillis);
    var hit := k in expired.0.entries;
    var value := if hit then expired.0.entries[k].value else creator.value;
    var touched := Touch(expired.0, k, value, nowMillis);
    assert touched.recency[|touched.recency| - 1] == k;
  }

  lemma AccessOfOtherKeys<T>(c: LabelCache<T>, k: LabelKey, creator: Option<T>, nowMillis: int)
    requires Valid(c)
    requires Live(c, k, nowMillis) || creator.Some?
    ensures var a := AccessOf(c, k, creator, nowMillis);
            && (forall x :: x in a.cache.entries ==> !IsExpired(c, a.cache.entries[x], nowMillis))
            && (forall x :: x in a.cache.entries && x != k ==> x in c.entries && a.cache.entries[x] == c.entries[x])
  {
    var expired := ExpireIdle(c, nowMillis);
    var hit := k in expired.0.entries;
    var value := if hit then expired.0.entries[k].value else creator.value;
    var touched := Touch(expired.0, k, value, nowMillis);
    var trim := TrimToSize(touched);
    assert AccessOf(c, k, creator, nowMillis).cache == trim.0;
    forall x | x in trim.0.entries
      ensures !IsExpired(c, trim.0.entries[x], nowMillis)
      ensures x != k ==> x in c.entries && trim.0.entries[x] == c.entries[x]
    {
      assert trim.0.entries[x] == touched.entries[x];
      if x != k {
        assert touched.entries[x] == expired.0.entries[x];
        assert Live(c, x, nowMillis);
      }
    }
  }

  /** The keys removed by one access are the expired keys, then the size victims. */
  lemma AccessRemovedKeys<T>(c: LabelCache<T>, k: LabelKey, creator: Option<T>, nowMillis: int)
    requires Valid(c)
    requires Live(c, k, nowMillis) || creator.Some?
    ensures var a := AccessOf(c, k, creator, nowMillis);
            var expired := ExpireIdle(c, nowMillis);
            var value := if k in expired.0.entries then expired.0.entries[k].value else creator.value;
            var trim := TrimToSize(Touch(expired.0, k, value, nowMillis));
            && RemovedKeys(a.removals) == expired.1 + trim.1
            && CallbackKeys(a.removals) == RemovedKeys(a.removals)
            && (forall x :: x in trim.1 ==> x in expired.0.entries && x != k)
  {
    var expired := ExpireIdle(c, nowMillis);
    var value := if k in expired.0.entries then expired.0.entries[k].value else creator.value;
    var trim := TrimToSize(Touch(expired.0, k, value, nowMillis));
    RemovalsOfOneAccess(expired.1, trim.1, Tag(expired.1, Expired) + Tag(trim.1, Size));
    TrimAfterTouch(expired.0, k, value, nowMillis);
  }

  /** Trimming right after storing `k` removes only keys that were there before, and
      never `k`. */
  lemma TrimAfterTouch<T>(c: LabelCache<T>, k: LabelKey, v: T, nowMillis: int)
    requires Valid(c)
    ensures var trim := TrimToSize(Touch(c, k, v, nowMillis));
            forall x :: x in trim.1 ==> x in c.entries && x != k
  {
    var touched := Touch(c, k, v, nowMillis);
    assert touched.recency[|touched.recency| - 1] == k;
  }

  lemma AccessRemovals<T>(c: LabelCache<T>, k: LabelKey, creator: Option<T>, nowMillis: int)
    requires Valid(c)
    requires Live(c, k, nowMillis) || creator.Some?
    ensures var a := AccessOf(c, k, creator, nowMillis);
            && (forall x :: x in c.entries && x != k ==> (x in a.cache.entries <==> x !in RemovedKeys(a.removals)))
            && (forall x :: x in RemovedKeys(a.removals) ==> x in c.entries)
            && (k in RemovedKeys(a.removals) <==> k in c.entries && !Live(c, k, nowMillis))
            && Distinct(RemovedKeys(a.removals))
            && CallbackKeys(a.removals) == RemovedKeys(a.removals)
            && (c.maxSize == 0 && c.expireMillis == 0 ==> a.removals == [])
  {
    AccessRemovedKeys(c, k, creator, nowMillis);
    var expired := ExpireIdle(c, nowMillis);
    var value := if k in expired.0.entries then expired.0.entries[k].value else creator.value;
    var trim := TrimToSize(Touch(expired.0, k, value, nowMillis));
    DistinctConcat(expired.1, trim.1);
  }

  lemma RemovalsOfOneAccess(stale: seq<LabelKey>, victims: seq<LabelKey>, removals: seq<Removal>)
    requires removals == Tag(stale, Expired) + Tag(victims, Size)
    ensures RemovedKeys(removals) == stale + victims
    ensures CallbackKeys(removals) == RemovedKeys(removals)
  {
    assert forall i :: 0 <= i < |removals| ==> NotifiesCallback(removals[i].cause);
    CallbackOnlyForExpiryOrSize(removals);
  }

  lemma DistinctConcat(a: seq<LabelKey>, b: seq<LabelKey>)
    requires Distinct(a) && Distinct(b)
    requires forall x :: x in b ==> x !in a
    ensures Distinct(a + b)
  {
    forall i, j | 0 <= i < j < |a + b|
      ensures (a + b)[i] != (a + b)[j]
    {
      if i < |a| && j >= |a| {
        assert (a + b)[j] == b[j - |a|];
        assert b[j - |a|] in b;
      }
    }
  }

  // ------------------------------------------------------------------ lemmas

  /** Two calls for the same key with no removal of that key in between return the
      same value, and the second call does not run its creator. */
  lemma SecondAccessReturnsFirstValue<T>(c: LabelCache<T>, k: LabelKey, v1: T, v2: T, t1: int, t2: int)
    requires Valid(c)
    requires t1 <= t2
    requires c.expireMillis == 0 || t2 - t1 < c.expireMillis
    ensures var first := GetOrCreate(c, Some(k), Some(v1), t1).value;
            var second := GetOrCreate(first.cache, Some(k), Some(v2), t2).value;
            second.value == first.value && !second.created
  {
    var first := GetOrCreate(c, Some(k), Some(v1), t1).value;
    assert Live(first.cache, k, t2);
  }

  /** With both bounds disabled, no call ever removes anything or fires the callback. */
  lemma UnboundedNeverEvicts<T>(c: LabelCache<T>, k: LabelKey, v: T, nowMillis: int)
    requires Valid(c) && c.maxSize == 0 && c.expireMillis == 0
    ensures var a := GetOrCreate(c, Some(k), Some(v), nowMillis).value;
            a.removals == [] && a.cache.entries.Keys == c.entries.Keys + {k}
  {
  }

  /** A map with at most one entry that holds `k` holds only `k`. */
  lemma AtMostOneKey<E>(m: map<LabelKey, E>, k: LabelKey)
    requires k in m && |m| <= 1
    ensures m.Keys == {k}
  {
    var others := m.Keys - {k};
    assert m.Keys == others + {k};
    assert others == {} by {
      assert |m.Keys| == |others| + 1;
    }
  }

  /** With `maxSize` 1 the cache holds only the key accessed last. */
  lemma SizeOneHoldsOnlyLastKey<T>(c: LabelCache<T>, k: LabelKey, v: T, nowMillis: int)
    requires Valid(c) && c.maxSize == 1
    ensures GetOrCreate(c, Some(k), Some(v), nowMillis).value.cache.entries.Keys == {k}
  {
    var a := GetOrCreate(c, Some(k), Some(v), nowMillis).value;
    AtMostOneKey(a.cache.entries, k);
  }

  /** The first access to an empty cache runs the creator, stores its value under
      the key and removes nothing. */
  lemma FirstAccessCreates<T>(c: LabelCache<T>, k: LabelKey, v: T, nowMillis: int)
    requires Valid(c) && c.entries == map[]
    ensures var r := GetOrCreate(c, Some(k), Some(v), nowMillis).value;
            r.value == v && r.created && r.removals == [] && k in r.cache.entries
  {
    assert !Live(c, k, nowMillis);
    var g := GetOrCreate(c, Some(k), Some(v), nowMillis);
    assert g.Success?;
    NothingRemovedFromEmpty(g.value.removals, c.entries);
  }

  /** Removals all drawn from an empty cache are no removals at all. */
  lemma NothingRemovedFromEmpty<T>(rs: seq<Removal>, entries: map<LabelKey, Entry<T>>)
    requires forall x :: x in RemovedKeys(rs) ==> x in entries
    ensures entries == map[] ==> rs == []
  {
    if |rs| > 0 {
      assert RemovedKeys(rs)[0] in entries;
    }
  }

  /** `maxSize` 1: when `a` is cached, an access to another key `b` removes `a` and
      reports it to the callback. */
  lemma SizeOneEvictsOther<T>(c: LabelCache<T>, a: LabelKey, b: LabelKey, vb: T, t: int)
    requires Valid(c) && c.maxSize == 1 && a in c.entries && a != b
    ensures var r := GetOrCreate(c, Some(b), Some(vb), t).value;
            a in CallbackKeys(r.removals) && a !in r.cache.entries
  {
    var r := GetOrCreate(c, Some(b), Some(vb), t).value;
    SizeOneHoldsOnlyLastKey(c, b, vb, t);
    assert a !in r.cache.entries;
  }

  /** A key with no entry is built by the creator. */
  lemma AbsentKeyIsCreated<T>(c: LabelCache<T>, k: LabelKey, v: T, t: int)
    requires Valid(c) && k !in c.entries
    ensures var r := GetOrCreate(c, Some(k), Some(v), t).value;
            r.value == v && r.created
  {
  }

  /** `maxSize` 1: when `a` is cached, an access to another key `b` removes `a` and
      reports it to the callback, and the next access to `a` builds a new value. */
  lemma SizeOneEvictsOlderKey<T>(c: LabelCache<T>, a: LabelKey, b: LabelKey, vb: T, vc: T, t: int)
    requires Valid(c) && c.maxSize == 1 && a in c.entries && a != b
    ensures var r2 := GetOrCreate(c, Some(b), Some(vb), t).value;
            var r3 := GetOrCreate(r2.cache, Some(a), Some(vc), t).value;
            && a in CallbackKeys(r2.removals)
            && a !in r2.cache.entries
            && r3.value == vc && r3.created
  {
    var r2 := GetOrCreate(c, Some(b), Some(vb), t).value;
    SizeOneEvictsOther(c, a, b, vb, t);
    AbsentKeyIsCreated(r2.cache, a, vc, t);
  }

  /** An entry idle for the whole expiry time is dropped: the next access rebuilds it
      and the callback is told about the old one. */
  lemma IdleEntryExpires<T>(c: LabelCache<T>, k: LabelKey, v1: T, v2: T, t1: int, t2: int)
    requires Valid(c) && c.expireMillis > 0
    requires t2 - t1 >= c.expireMillis
    ensures var first := GetOrCreate(c, Some(k), Some(v1), t1).value;
            var second := GetOrCreate(first.cache, Some(k), Some(v2), t2).value;
            && second.value == v2 && second.created
            && k in CallbackKeys(second.removals)
  {
    var first := GetOrCreate(c, Some(k), Some(v1), t1).value;
    var second := GetOrCreate(first.cache, Some(k), Some(v2), t2).value;
    assert k in first.cache.entries && !Live(first.cache, k, t2);
  }
}

=== FILE: metrics_manager.dfy ===
/** `MetricsManager`'s constructor: for every configured metric, in order, make sure
    it has a label list and a `path` label, build its handler and register the
    handler with the tailer manager under the metric's match format. Handlers are
    referred to by their position in the manager's handler list. Starting the HTTP
    server is not modelled. */
module MetricsManager {
  import opened Base
  import opened Config
  import opened Parser
  import opened TailerManager
  import opened Handlers

  /** The name and source field of the label every metric carries. */
  const PathLabelName: string := "path"

  /** The label added to a metric that has none named `path`. */
  const PathLabel: LabelConfig :=
    EmptyLabelConfig.(name := Some(PathLabelName), sourceField := Some(PathLabelName), action := Some("NO_OP"))

  predicate HasPathLabel(labels: seq<LabelConfig>) {
    exists i :: 0 <= i < |labels| && labels[i].name == Some(PathLabelName)
  }

  /** The `path` label injection: the list as it is when some label is already named
      `path`, otherwise the list with `PathLabel` appended. */
  function WithPathLabel(labels: seq<LabelConfig>): (r: seq<LabelConfig>)
    ensures HasPathLabel(r)
    ensures HasPathLabel(labels) ==> r == labels
    ensures !HasPathLabel(labels) ==> |r| == |labels| + 1 && r[..|labels|] == labels && r[|labels|] == PathLabel
  {
    if HasPathLabel(labels) then labels
    else
      assert (labels + [PathLabel])[|labels|] == PathLabel;
      labels + [PathLabel]
  }

  /** The injection is idempotent. */
  lemma WithPathLabelIdempotent(labels: seq<LabelConfig>)
    ensures WithPathLabel(WithPathLabel(labels)) == WithPathLabel(labels)
  {
  }

  /** A metric as the loop leaves it before building its handler: a null label list
      becomes empty, then the `path` label is injected; nothing else changes. */
  function PrepareMetric(m: MetricConfig): (r: MetricConfig)
    ensures r.labels.Some? && HasPathLabel(r.labels.value)
    ensures r.(labels := m.labels) == m
    ensures m.labels.None? ==> r.labels.value == [PathLabel]
    ensures m.labels.Some? ==> r.labels.value == WithPathLabel(m.labels.value)
  {
    var labels := if m.labels.None? then [] else m.labels.value;
    assert !HasPathLabel([]);
    m.(labels := Some(WithPathLabel(labels)))
  }

  /** Preparing a prepared metric changes nothing. */
  lemma PrepareMetricIdempotent(m: MetricConfig)
    ensures PrepareMetric(PrepareMetric(m)) == PrepareMetric(m)
  {
  }

  // ------------------------------------------------------------------ the loop

  /** What the loop builds: the tailer manager it registered with, the handler list,
      and the sample names claimed in the collector registry so far. */
  datatype Built = Built(tailer: Manager<nat>, handlers: seq<Handler>, registry: set<string>)

  datatype BuildError =
    | NullMetrics
    | HandlerFailed(factoryError: FactoryError)
    | NullMatch
    | RegisterFailed(parserError: ParserError)

  /** What the constructor needs from outside: the client's validation of a family,
      the client's default buckets, and the Grok compiler. */
  datatype Dependencies = Dependencies(accepts: FamilySpec -> bool, defaultBuckets: seq<real>, compile: Compiler)

  /** A handler as the loop builds it for metric `m`: for the prepared metric, with
      no series yet, and with its cache and family in agreement. */
  ghost predicate FreshHandlerFor(h: Handler, m: MetricConfig) {
    && h.config == PrepareMetric(m)
    && h.family.series == map[]
    && Consistent(h)
  }

  /** The first half of an iteration: prepare the metric and build its handler. An
      unknown type, a rejected family or a name already claimed ends the loop. */
  function MakeHandler(m: MetricConfig, registry: set<string>, deps: Dependencies)
    : (r: Result<(Handler, set<string>), BuildError>)
    ensures KindOf(m.metricType).None? ==> r == Failure(HandlerFailed(UnsupportedType(m.metricType)))
    ensures r.Failure? <==> CreateHandler(PrepareMetric(m), registry, deps.accepts, deps.defaultBuckets).Failure?
    ensures r.Success? ==>
              && KindOf(m.metricType).Some?
              && m.name.Some? && m.name.value !in registry
              && r.value.0.family.spec.name == m.name
              && ReservedNames(r.value.0.family.spec) !! registry
              && r.value.1 == registry + ReservedNames(r.value.0.family.spec)
              && FreshHandlerFor(r.value.0, m)
  {
    match CreateHandler(PrepareMetric(m), registry, deps.accepts, deps.defaultBuckets)
    case Failure(e) => Failure(HandlerFailed(e))
    case Success(built) => Success(built)
  }

  /** A format's handler list with one more position at its end. */
  function AddPosition(handlers: map<string, seq<nat>>, f: string, position: nat): map<string, seq<nat>> {
    handlers[f := (if f in handlers then handlers[f] else []) + [position]]
  }

  /** The second half: register the handler's position under the metric's match
      format. A null format cannot be compiled and ends the loop. */
  function Enlist(t: Manager<nat>, m: MetricConfig, position: nat, deps: Dependencies)
    : (r: Result<Manager<nat>, BuildError>)
    ensures m.matchFormat.None? ==> r == Failure(NullMatch)
    ensures m.matchFormat.Some? ==> (r.Failure? <==> Register(t, m.matchFormat.value, position, deps.compile).Failure?)
    ensures r.Success? ==>
              && m.matchFormat.Some?
              && r.value.config == t.config && r.value.activeTailers == t.activeTailers
              && r.value.handlers == AddPosition(t.handlers, m.matchFormat.value, position)
              && (TailerManager.Valid(t) ==> TailerManager.Valid(r.value))
  {
    if m.matchFormat.None? then Failure(NullMatch)
    else
      match Register(t, m.matchFormat.value, position, deps.compile)
      case Failure(e) => Failure(RegisterFailed(e))
      case Success(t1) => Success(t1)
  }

  /** `hs` are the handlers the loop builds for `ms`, one per metric, in order; each
      such metric has a known type and a match format. */
  ghost predicate AllFresh(hs: seq<Handler>, ms: seq<MetricConfig>)
    decreases |ms|
  {
    && |hs| == |ms|
    && (|ms| > 0 ==>
          && KindOf(ms[0].metricType).Some?
          && ms[0].matchFormat.Some?
          && FreshHandlerFor(hs[0], ms[0])
          && AllFresh(hs[1..], ms[1..]))
  }

  lemma {:induction false} AllFreshAt(hs: seq<Handler>, ms: seq<MetricConfig>, i: nat)
    requires AllFresh(hs, ms) && i < |ms|
    ensures KindOf(ms[i].metricType).Some? && ms[i].matchFormat.Some? && FreshHandlerFor(hs[i], ms[i])
    decreases i
  {
    if i > 0 {
      AllFreshAt(hs[1..], ms[1..], i - 1);
      assert hs[1..][i - 1] == hs[i] && ms[1..][i - 1] == ms[i];
    }
  }

  /** The loop from the metric at position `base` on, with the tailer manager and the
      names registered so far: one fresh handler per metric, in order; the tailer
      manager keeps its settings, its active tailers and its registry invariant. */
  function BuildFrom(ms: seq<MetricConfig>, t: Manager<nat>, registry: set<string>, base: nat, deps: Dependencies)
    : (r: Result<Built, BuildError>)
    ensures r.Success? ==> AllFresh(r.value.handlers, ms)
    ensures r.Success? ==> r.value.tailer.config == t.config && r.value.tailer.activeTailers == t.activeTailers
    ensures r.Success? && TailerManager.Valid(t) ==> TailerManager.Valid(r.value.tailer)
    decreases |ms|
  {
    if |ms| == 0 then Success(Built(t, [], registry))
    else
      var made :- MakeHandler(ms[0], registry, deps);
      var t1 :- Enlist(t, ms[0], base, deps);
      var rest :- BuildFrom(ms[1..], t1, made.1, base + 1, deps);
      assert ([made.0] + rest.handlers)[1..] == rest.handlers;
      Success(Built(rest.tailer, [made.0] + rest.handlers, rest.registry))
  }

  /** One iteration that went through: the first metric's handler was built and
      registered, and the rest of the loop went through from there to the same end. */
  lemma BuildFromFirst(ms: seq<MetricConfig>, t: Manager<nat>, registry: set<string>, base: nat, deps: Dependencies)
    requires |ms| > 0 && BuildFrom(ms, t, registry, base, deps).Success?
    ensures MakeHandler(ms[0], registry, deps).Success? && Enlist(t, ms[0], base, deps).Success?
    ensures var rest := BuildFrom(ms[1..], Enlist(t, ms[0], base, deps).value,
                                  MakeHandler(ms[0], registry, deps).value.1, base + 1, deps);
            && rest.Success?
            && rest.value.tailer == BuildFrom(ms, t, registry, base, deps).value.tailer
            && rest.value.registry == BuildFrom(ms, t, registry, base, deps).value.registry
  {
  }

  /** An iteration that fails ends the loop with its error, and so does a failure in
      the rest of the loop. */
  lemma BuildFromFails(ms: seq<MetricConfig>, t: Manager<nat>, registry: set<string>, base: nat, deps: Dependencies)
    requires |ms| > 0
    ensures MakeHandler(ms[0], registry, deps).Failure? ==>
              BuildFrom(ms, t, registry, base, deps) == Failure(MakeHandler(ms[0], registry, deps).error)
    ensures MakeHandler(ms[0], registry, deps).Success? && Enlist(t, ms[0], base, deps).Failure? ==>
              BuildFrom(ms, t, registry, base, deps) == Failure(Enlist(t, ms[0], base, deps).error)
    ensures MakeHandler(ms[0], registry, deps).Success? && Enlist(t, ms[0], base, deps).Success? ==>
              var rest := BuildFrom(ms[1..], Enlist(t, ms[0], base, deps).value,
                                    MakeHandler(ms[0], registry, deps).value.1, base + 1, deps);
              rest.Failure? ==> BuildFrom(ms, t, registry, base, deps) == Failure(rest.error)
  {
  }

  /** Dropping the first element of a sequence with `m` in the middle. */
  lemma ConsTail<T>(pre: seq<T>, m: T, post: seq<T>)
    requires |pre| > 0
    ensures (pre + [m] + post)[0] == pre[0] && (pre + [m] + post)[1..] == pre[1..] + [m] + post
  {
  }

  /** The loop stops at a metric whose handler cannot be built: when the metrics
      `pre` before metric `m` all went through and building the handler of `m` fails,
      the whole loop fails with that error, whatever follows `m`. */
  lemma {:induction false} StopsAtFailedHandler(pre: seq<MetricConfig>, m: MetricConfig, post: seq<MetricConfig>,
                                                t: Manager<nat>, registry: set<string>, base: nat, deps: Dependencies)
    requires BuildFrom(pre, t, registry, base, deps).Success?
    requires MakeHandler(m, BuildFrom(pre, t, registry, base, deps).value.registry, deps).Failure?
    ensures BuildFrom(pre + [m] + post, t, registry, base, deps)
            == Failure(MakeHandler(m, BuildFrom(pre, t, registry, base, deps).value.registry, deps).error)
    decreases |pre|
  {
    BuildFromFails(pre + [m] + post, t, registry, base, deps);
    if |pre| == 0 {
      assert (pre + [m] + post)[0] == m;
    } else {
      ConsTail(pre, m, post);
      BuildFromFirst(pre, t, registry, base, deps);
      StopsAtFailedHandler(pre[1..], m, post, Enlist(t, pre[0], base, deps).value,
                           MakeHandler(pre[0], registry, deps).value.1, base + 1, deps);
    }
  }

  /** The loop stops likewise at a metric whose handler cannot be registered with
      the tailer manager. */
  lemma {:induction false} StopsAtFailedRegistration(pre: seq<MetricConfig>, m: MetricConfig, post: seq<MetricConfig>,
                                                     t: Manager<nat>, registry: set<string>, base: nat, deps: Dependencies)
    requires BuildFrom(pre, t, registry, base, deps).Success?
    requires MakeHandler(m, BuildFrom(pre, t, registry, base, deps).value.registry, deps).Success?
    requires Enlist(BuildFrom(pre, t, registry, base, deps).value.tailer, m, base + |pre|, deps).Failure?
    ensures BuildFrom(pre + [m] + post, t, registry, base, deps)
            == Failure(Enlist(BuildFrom(pre, t, registry, base, deps).value.tailer, m, base + |pre|, deps).error)
    decreases |pre|
  {
    BuildFromFails(pre + [m] + post, t, registry, base, deps);
    if |pre| == 0 {
      assert (pre + [m] + post)[0] == m;
    } else {
      ConsTail(pre, m, post);
      BuildFromFirst(pre, t, registry, base, deps);
      StopsAtFailedRegistration(pre[1..], m, post, Enlist(t, pre[0], base, deps).value,
                                MakeHandler(pre[0], registry, deps).value.1, base + 1, deps);
    }
  }

  /** The positions, counted from `base`, of the metrics whose match format is `f`,
      in config order. */
  function PositionsFor(ms: seq<MetricConfig>, f: string, base: nat): (r: seq<nat>)
    ensures |r| <= |ms|
    decreases |ms|
  {
    if |ms| == 0 then []
    else if ms[0].matchFormat == Some(f) then [base] + PositionsFor(ms[1..], f, base + 1)
    else PositionsFor(ms[1..], f, base + 1)
  }

  /** A position is listed exactly when its metric matches `f`. */
  lemma {:induction false} PositionsForMembers(ms: seq<MetricConfig>, f: string, base: nat)
    ensures forall x :: x in PositionsFor(ms, f, base) <==>
              base <= x < base + |ms| && ms[x - base].matchFormat == Some(f)
    decreases |ms|
  {
    if |ms| > 0 {
      PositionsForMembers(ms[1..], f, base + 1);
      forall x
        ensures x in PositionsFor(ms, f, base) <==> base <= x < base + |ms| && ms[x - base].matchFormat == Some(f)
      {
        if base + 1 <= x < base + |ms| {
          assert ms[x - base] == ms[1..][x - (base + 1)];
        }
      }
    }
  }

  /** The positions ascend, so handlers are listed in config order. */
  lemma {:induction false} PositionsForAscend(ms: seq<MetricConfig>, f: string, base: nat)
    ensures forall j, k :: 0 <= j < k < |PositionsFor(ms, f, base)| ==>
              PositionsFor(ms, f, base)[j] < PositionsFor(ms, f, base)[k]
    decreases |ms|
  {
    if |ms| > 0 {
      var rest := PositionsFor(ms[1..], f, base + 1);
      PositionsForAscend(ms[1..], f, base + 1);
      PositionsForMembers(ms[1..], f, base + 1);
      var r := PositionsFor(ms, f, base);
      if ms[0].matchFormat == Some(f) {
        forall j, k | 0 <= j < k < |r|
          ensures r[j] < r[k]
        {
          assert r[k] == rest[k - 1] && rest[k - 1] in rest;
          if j > 0 {
            assert r[j] == rest[j - 1];
          }
        }
      }
    }
  }

  /** The handler lists after the loop: every format's list is the list it had,
      followed by the positions of the metrics matching that format, in config order. */
  lemma {:induction false} RegisteredInConfigOrder(ms: seq<MetricConfig>, t: Manager<nat>, registry: set<string>,
                                                   base: nat, deps: Dependencies, f: string)
    requires BuildFrom(ms, t, registry, base, deps).Success?
    ensures var t' := BuildFrom(ms, t, registry, base, deps).value.tailer;
            var before := if f in t.handlers then t.handlers[f] else [];
            var positions := PositionsFor(ms, f, base);
            && (f in t'.handlers <==> f in t.handlers || |positions| > 0)
            && (f in t'.handlers ==> t'.handlers[f] == before + positions)
    decreases |ms|
  {
    if |ms| > 0 {
      var made := MakeHandler(ms[0], registry, deps).value;
      var t1 := Enlist(t, ms[0], base, deps).value;
      RegisteredInConfigOrder(ms[1..], t1, made.1, base + 1, deps, f);
      var rest := PositionsFor(ms[1..], f, base + 1);
      var before := if f in t.handlers then t.handlers[f] else [];
      if ms[0].matchFormat == Some(f) {
        assert t1.handlers[f] == before + [base];
        assert PositionsFor(ms, f, base) == [base] + rest;
        AppendAssociates(before, [base], rest);
      } else {
        assert PositionsFor(ms, f, base) == rest;
        assert f in t1.handlers <==> f in t.handlers;
        assert f in t.handlers ==> t1.handlers[f] == t.handlers[f];
      }
    }
  }

  lemma AppendAssociates(a: seq<nat>, b: seq<nat>, c: seq<nat>)
    ensures a + b + c == a + (b + c)
  {
  }

  /** `new MetricsManager(config, tailer)`: a null metric list fails at once; otherwise
      the loop runs from the first position and an empty registry. Success means every
      metric got its handler, at its own position. */
  function Build(metrics: Option<seq<MetricConfig>>, tailer: Manager<nat>, deps: Dependencies)
    : (r: Result<Built, BuildError>)
    ensures metrics.None? ==> r == Failure(NullMetrics)
    ensures r.Success? ==> |r.value.handlers| == |metrics.value|
    ensures r.Success? ==> forall i :: 0 <= i < |metrics.value| ==>
              && KindOf(metrics.value[i].metricType).Some?
              && metrics.value[i].matchFormat.Some?
              && FreshHandlerFor(r.value.handlers[i], metrics.value[i])
    ensures r.Success? ==> r.value.tailer.config == tailer.config && r.value.tailer.activeTailers == tailer.activeTailers
    ensures r.Success? && TailerManager.Valid(tailer) ==> TailerManager.Valid(r.value.tailer)
  {
    if metrics.None? then Failure(NullMetrics)
    else
      var r := BuildFrom(metrics.value, tailer, {}, 0, deps);
      if r.Success? then
        forall i | 0 <= i < |metrics.value|
          ensures && KindOf(metrics.value[i].metricType).Some?
                  && metrics.value[i].matchFormat.Some?
                  && FreshHandlerFor(r.value.handlers[i], metrics.value[i])
        {
          AllFreshAt(r.value.handlers, metrics.value, i);
        }
        r
      else r
  }

  /** `new MetricsManager(config, tailer)` fails with the error of the first metric
      whose handler cannot be built or registered, whatever metrics follow it. */
  lemma BuildFailsAtFirstFailure(pre: seq<MetricConfig>, m: MetricConfig, post: seq<MetricConfig>,
                                 tailer: Manager<nat>, deps: Dependencies)
    requires BuildFrom(pre, tailer, {}, 0, deps).Success?
    ensures var b := BuildFrom(pre, tailer, {}, 0, deps).value;
            var made := MakeHandler(m, b.registry, deps);
            && (made.Failure? ==> Build(Some(pre + [m] + post), tailer, deps) == Failure(made.error))
            && (made.Success? && Enlist(b.tailer, m, |pre|, deps).Failure? ==>
                  Build(Some(pre + [m] + post), tailer, deps) == Failure(Enlist(b.tailer, m, |pre|, deps).error))
  {
    var b := BuildFrom(pre, tailer, {}, 0, deps).value;
    if MakeHandler(m, b.registry, deps).Failure? {
      StopsAtFailedHandler(pre, m, post, tailer, {}, 0, deps);
    } else if Enlist(b.tailer, m, |pre|, deps).Failure? {
      StopsAtFailedRegistration(pre, m, post, tailer, {}, 0, deps);
    }
  }

  /** A single metric matching `test_match` registers one handler, the first, under
      `test_match`. */
  lemma OneMetricOneRegistration(m: MetricConfig, tailer: Manager<nat>, deps: Dependencies)
    requires m.matchFormat == Some("test_match")
    requires tailer.handlers == map[]
    requires Build(Some([m]), tailer, deps).Success?
    ensures Build(Some([m]), tailer, deps).value.tailer.handlers == map["test_match" := [0]]
  {
    assert Build(Some([m]), tailer, deps).value.tailer == BuildFrom([m], tailer, {}, 0, deps).value.tailer;
    SingleMetricRegistered(m, tailer, deps);
  }

  /** The registrations left by a loop over one metric, from no registrations. */
  lemma SingleMetricRegistered(m: MetricConfig, tailer: Manager<nat>, deps: Dependencies)
    requires m.matchFormat.Some? && tailer.handlers == map[]
    requires BuildFrom([m], tailer, {}, 0, deps).Success?
    ensures BuildFrom([m], tailer, {}, 0, deps).value.tailer.handlers == map[m.matchFormat.value := [0]]
  {
    BuildFromFirst([m], tailer, {}, 0, deps);
    assert [m][1..] == [];
    var t1 := Enlist(tailer, m, 0, deps).value;
    assert BuildFrom([], t1, MakeHandler(m, {}, deps).value.1, 1, deps).value.tailer == t1;
    AddPositionEmpty(m.matchFormat.value, 0);
  }

  /** The first registration of a format lists just its position. */
  lemma AddPositionEmpty(f: string, position: nat)
    ensures AddPosition(map[], f, position) == map[f := [position]]
  {
    assert [] + [position] == [position];
  }
}

=== FILE: parser.dfy ===
/** `LogParser`: turns one log line into a field map through a compiled Grok pattern.
    The Grok compiler and matcher are oracles supplied by the caller. */
module Parser {
  import opened Base

  /** The named captures of one successful match: capture name to the captured
      object's `toString()`, or `None` when the captured object is null. */
  type Captures = map<string, Option<string>>

  /** A compiled pattern applied to a line: `None` when the match is null (no match). */
  type Matcher = string -> Option<Captures>

  /** The Grok compiler, with its default patterns and the given custom patterns
      registered, compiling one match format: `None` when compilation throws, as it
      does for a reference to an undefined pattern. */
  type Compiler = (string, map<string, string>) -> Option<Matcher>

  datatype ParserError = CompileFailed(format: string)

  /** A parser for one match format. */
  datatype LogParser = LogParser(format: string, matcher: Matcher)

  /** The custom patterns handed to the compiler: none when the configured map is null. */
  function CustomPatterns(globalPatterns: Option<map<string, string>>): (r: map<string, string>)
    ensures globalPatterns.None? ==> r == map[]
    ensures globalPatterns.Some? ==> r == globalPatterns.value
  {
    globalPatterns.GetOr(map[])
  }

  /** `new LogParser(matchFormat, globalPatterns)`: compilation failures surface here,
      at construction, and never later from `Parse`, which has no failure outcome. */
  function NewParser(format: string, globalPatterns: Option<map<string, string>>, compile: Compiler)
    : (r: Result<LogParser, ParserError>)
    ensures r.Failure? <==> compile(format, CustomPatterns(globalPatterns)).None?
    ensures r.Failure? ==> r.error == CompileFailed(format)
    ensures r.Success? ==> r.value.format == format
                           && r.value.matcher == compile(format, CustomPatterns(globalPatterns)).value
  {
    match compile(format, CustomPatterns(globalPatterns))
    case None => Failure(CompileFailed(format))
    case Some(m) => Success(LogParser(format, m))
  }

  /** `parse(line)`: no match gives the empty map; otherwise every non-null capture
      appears under its own name with its string form, and null captures are dropped. */
  function Parse(p: LogParser, line: string): (r: map<string, string>)
    ensures p.matcher(line).None? ==> r == map[]
    ensures p.matcher(line).Some? ==>
              forall k :: k in r <==> k in p.matcher(line).value && p.matcher(line).value[k].Some?
    ensures p.matcher(line).Some? ==>
              forall k :: k in r ==> p.matcher(line).value[k] == Some(r[k])
  {
    match p.matcher(line)
    case None => map[]
    case Some(caps) => map k | k in caps && caps[k].Some? :: caps[k].value
  }

  /** A parse result is empty exactly when the line does not match or every capture
      is null; only then does the tailer skip the pattern's handlers. */
  lemma ParseEmptyIff(p: LogParser, line: string)
    ensures Parse(p, line) == map[] <==>
              (p.matcher(line).None? ||
               forall k :: k in p.matcher(line).value ==> p.matcher(line).value[k].None?)
  {
    var r := Parse(p, line);
    if p.matcher(line).Some? {
      var caps := p.matcher(line).value;
      if r == map[] {
        forall k | k in caps
          ensures caps[k].None?
        {
          assert k !in r;
        }
      } else {
        var k :| k in r;
        assert caps[k].Some?;
      }
    }
  }

  /** The keys of a parse result are capture names of the matched pattern. */
  lemma ParseKeysAreCaptureNames(p: LogParser, line: string)
    ensures Parse(p, line).Keys <= (if p.matcher(line).Some? then p.matcher(line).value.Keys else {})
  {
  }
}

=== FILE: paths.dfy ===
/** File-system paths and a snapshot of the file system, standing in for
    `java.nio.file.Path`, `Files.exists`, `Files.isRegularFile`, `Files.walk` and
    `Files.getLastModifiedTime`. */
module Paths {
  import opened Base

  /** A path: absolute or relative, and its name elements.  `/` is
      `Path(true, [])`. */
  datatype Path = Path(absolute: bool, names: seq<string>)

  /** `Path.getParent()`: null for the root, for the empty path and for a relative
      path of one element. */
  function Parent(p: Path): (r: Option<Path>)
    ensures r.Some? <==> |p.names| > 1 || (|p.names| == 1 && p.absolute)
    ensures r.Some? ==> r.value.absolute == p.absolute
                        && r.value.names + [p.names[|p.names| - 1]] == p.names
    ensures r.Some? ==> r.value.absolute || |r.value.names| > 0
  {
    if |p.names| > 1 || (|p.names| == 1 && p.absolute) then
      Some(Path(p.absolute, p.names[..|p.names| - 1]))
    else
      None
  }

  /** `Path.getFileName()`: the last name element, null when there is none. */
  function FileName(p: Path): (r: Option<string>)
    ensures r.Some? <==> |p.names| > 0
    ensures r.Some? ==> p.names == p.names[..|p.names| - 1] + [r.value]
  {
    if |p.names| > 0 then Some(p.names[|p.names| - 1]) else None
  }

  /** `a` is `p` or one of the paths that repeated `getParent()` reaches from `p`. */
  ghost predicate OnParentChain(a: Path, p: Path) {
    && a.absolute == p.absolute
    && a.names <= p.names
    && (a.absolute || |a.names| > 0)
  }

  /** `p` lies in the subtree rooted at `dir` (including `dir` itself). */
  predicate Under(p: Path, dir: Path) {
    p.absolute == dir.absolute && dir.names <= p.names
  }

  /** What the file system says about one existing path. `mtime` is the last
      modification time in milliseconds, `None` when it cannot be read. */
  datatype FileEntry = FileEntry(isRegular: bool, mtime: Option<Int64>)

  /** The file system at one instant: every existing path and its entry. */
  type FileSystem = map<Path, FileEntry>

  /** The loop at the top of the scan: starting from `p`, climb with `getParent()`
      while the current path does not exist; null if the climb falls off the top. */
  function NearestExisting(fs: FileSystem, p: Option<Path>): (r: Option<Path>)
    requires p.Some? ==> p.value.absolute || |p.value.names| > 0
    ensures p.None? ==> r.None?
    ensures r.Some? ==> r.value in fs && OnParentChain(r.value, p.value)
    ensures r.Some? ==> forall q :: OnParentChain(q, p.value) && |q.names| > |r.value.names| ==> q !in fs
    ensures p.Some? && r.None? ==> forall q :: OnParentChain(q, p.value) ==> q !in fs
    decreases if p.Some? then |p.value.names| + 1 else 0
  {
    match p
    case None => None
    case Some(q) =>
      if q in fs then Some(q)
      else
        var up := Parent(q);
        var r := NearestExisting(fs, up);
        ChainStep(q);
        r
  }

  /** Every proper member of `q`'s parent chain is on the chain of `Parent(q)`. */
  lemma ChainStep(q: Path)
    ensures forall a :: OnParentChain(a, q) && a != q ==>
              Parent(q).Some? && OnParentChain(a, Parent(q).value)
  {
    forall a | OnParentChain(a, q) && a != q
      ensures Parent(q).Some? && OnParentChain(a, Parent(q).value)
    {
      assert a.names != q.names;
      assert |a.names| < |q.names|;
      var pq := Parent(q).value;
      assert a.names <= pq.names by {
        assert pq.names == q.names[..|q.names| - 1];
      }
    }
  }
}

=== FILE: pipeline.dfy ===
/** One log line through the whole pipeline: the tailer's deliveries for the line,
    each handed to the metric handler it names (handlers are named by their position
    in the metrics manager's list), each handler call being the handler as written,
    `Handlers.HandleAsWritten`. */
module Pipeline {
  import opened Base
  import opened Config
  import opened Parser
  import opened Tailer
  import opened TailerManager
  import opened Handlers
  import opened MetricsManager

  ghost predicate AllTracked(hs: seq<Handler>) {
    forall i :: 0 <= i < |hs| ==> Tracked(hs[i])
  }

  /** Every registered handler position names a handler of `hs`. */
  ghost predicate PositionsInRange(handlers: map<string, seq<nat>>, hs: seq<Handler>) {
    forall f, j :: f in handlers && 0 <= j < |handlers[f]| ==> handlers[f][j] < |hs|
  }

  /** One call `handler.handle(record)` on the handler the delivery names: that
      handler becomes what the as-written call leaves, whether or not it throws, the
      call's exception is the one returned, and the other handlers are left alone. */
  function DeliverOne(hs: seq<Handler>, d: Delivery<nat>, nowMillis: int, env: Environment)
    : (r: (seq<Handler>, Option<HandleError>))
    requires AllTracked(hs) && d.handler < |hs|
    ensures |r.0| == |hs| && AllTracked(r.0)
    ensures forall i :: 0 <= i < |hs| && i != d.handler ==> r.0[i] == hs[i]
    ensures r.0[d.handler] == HandleAsWritten(hs[d.handler], d.record, nowMillis, env).handler
    ensures r.1 == HandleAsWritten(hs[d.handler], d.record, nowMillis, env).failure
  {
    var out := HandleAsWritten(hs[d.handler], d.record, nowMillis, env);
    (hs[d.handler := out.handler], out.failure)
  }

  /** The call as the dispatcher sees it, for any state: `DeliverOne` on handlers
      that keep the invariant and a delivery that names one of them, and no change
      otherwise (a case the pipeline never reaches). */
  ghost function Call(hs: seq<Handler>, d: Delivery<nat>, nowMillis: int, env: Environment)
    : (r: (seq<Handler>, Option<HandleError>))
    ensures |r.0| == |hs|
    ensures AllTracked(hs) ==> AllTracked(r.0)
    ensures AllTracked(hs) && d.handler < |hs| ==> r == DeliverOne(hs, d, nowMillis, env)
  {
    if AllTracked(hs) && d.handler < |hs| then DeliverOne(hs, d, nowMillis, env) else (hs, None)
  }

  ghost function Caller(nowMillis: int, env: Environment)
    : (invoke: (seq<Handler>, Delivery<nat>) -> (seq<Handler>, Option<HandleError>))
  {
    (hs: seq<Handler>, d: Delivery<nat>) => Call(hs, d, nowMillis, env)
  }

  /** Every delivery names one of `n` handlers. */
  ghost predicate InRange(ds: seq<Delivery<nat>>, n: nat) {
    forall k :: 0 <= k < |ds| ==> ds[k].handler < n
  }

  /** The calls of a line made on the handlers in order, through the tailer's
      dispatch: the first call that throws ends the line. */
  ghost function Deliver(hs: seq<Handler>, ds: seq<Delivery<nat>>, nowMillis: int, env: Environment)
    : (r: Dispatched<seq<Handler>, HandleError>)
    requires AllTracked(hs) && InRange(ds, |hs|)
    ensures |r.state| == |hs| && AllTracked(r.state)
    ensures r.delivered <= |ds|
    ensures r.failure.None? <==> r.delivered == |ds|
  {
    DispatchKeepsTracked(hs, ds, nowMillis, env);
    Dispatch(hs, ds, Caller(nowMillis, env))
  }

  /** Dispatching through `Call` keeps the number of handlers and their invariant. */
  lemma {:induction false} DispatchKeepsTracked(hs: seq<Handler>, ds: seq<Delivery<nat>>, nowMillis: int,
                                                env: Environment)
    requires AllTracked(hs)
    ensures var r := Dispatch(hs, ds, Caller(nowMillis, env));
            |r.state| == |hs| && AllTracked(r.state)
    decreases |ds|
  {
    if |ds| > 0 {
      var first := Call(hs, ds[0], nowMillis, env);
      assert Caller(nowMillis, env)(hs, ds[0]) == first;
      if first.1.None? {
        DispatchKeepsTracked(first.0, ds[1..], nowMillis, env);
      }
    }
  }

  /** A line with one call makes it on the handler it names: the handlers are what
      the as-written call leaves, and the line fails exactly when that call throws,
      with its exception. */
  lemma DeliverSingle(hs: seq<Handler>, d: Delivery<nat>, nowMillis: int, env: Environment)
    requires AllTracked(hs) && d.handler < |hs|
    ensures var one := DeliverOne(hs, d, nowMillis, env);
            Deliver(hs, [d], nowMillis, env) == Dispatched(one.0, if one.1.None? then 1 else 0, one.1)
  {
    DispatchOne(hs, d, Caller(nowMillis, env));
  }

  /** Two batches of calls in a row: when the first batch fails the second is never
      made, and the handlers keep what the failing call left; otherwise the second
      batch runs on the handlers the first left. */
  lemma DeliverAppend(hs: seq<Handler>, a: seq<Delivery<nat>>, b: seq<Delivery<nat>>, nowMillis: int,
                      env: Environment)
    requires AllTracked(hs) && InRange(a, |hs|) && InRange(b, |hs|)
    ensures InRange(a + b, |hs|)
    ensures var first := Deliver(hs, a, nowMillis, env);
            Deliver(hs, a + b, nowMillis, env)
              == if first.failure.Some? then first
                 else
                   var second := Deliver(first.state, b, nowMillis, env);
                   Dispatched(second.state, first.delivered + second.delivered, second.failure)
  {
    assert InRange(a + b, |hs|) by {
      forall k | 0 <= k < |a + b|
        ensures (a + b)[k].handler < |hs|
      {
        if k >= |a| {
          assert (a + b)[k] == b[k - |a|];
        }
      }
    }
    if Deliver(hs, a, nowMillis, env).failure.Some? {
      NoDeliveryAfterFailure(hs, a, b, Caller(nowMillis, env));
    } else {
      DispatchAppend(hs, a, b, Caller(nowMillis, env));
    }
  }

  /** A line that fails failed at call number `delivered`: the calls before it all
      returned normally, and that call's as-written `handle` threw the exception
      reported, on the handlers those calls left, and left the handlers reported. */
  lemma DeliverFailureAt(hs: seq<Handler>, ds: seq<Delivery<nat>>, nowMillis: int, env: Environment)
    requires AllTracked(hs) && InRange(ds, |hs|)
    requires Deliver(hs, ds, nowMillis, env).failure.Some?
    ensures var r := Deliver(hs, ds, nowMillis, env);
            && InRange(ds[..r.delivered], |hs|)
            && var before := Deliver(hs, ds[..r.delivered], nowMillis, env);
               && before.failure.None?
               && ds[r.delivered].handler < |before.state|
               && DeliverOne(before.state, ds[r.delivered], nowMillis, env) == (r.state, r.failure)
  {
    var r := Deliver(hs, ds, nowMillis, env);
    DispatchFailureAt(hs, ds, Caller(nowMillis, env));
    assert InRange(ds[..r.delivered], |hs|) by {
      forall k | 0 <= k < r.delivered
        ensures ds[..r.delivered][k].handler < |hs|
      {
        assert ds[..r.delivered][k] == ds[k];
      }
    }
  }

  /** Every delivery of a line names a registered handler position. */
  lemma DeliveriesInRange(line: string, pathText: string, order: seq<string>, parsers: map<string, LogParser>,
                          handlers: map<string, seq<nat>>, hs: seq<Handler>)
    requires Registered(order, parsers, handlers)
    requires PositionsInRange(handlers, hs)
    ensures InRange(Deliveries(line, pathText, order, parsers, handlers), |hs|)
  {
    var ds := Deliveries(line, pathText, order, parsers, handlers);
    forall k | 0 <= k < |ds|
      ensures ds[k].handler < |hs|
    {
      var d := ds[k];
      assert d in ds;
      var j :| 0 <= j < |handlers[d.pattern]| && handlers[d.pattern][j] == d.handler;
    }
  }

  /** `LogTailer.handle(line)` for a tailer whose manager was filled by the metrics
      manager: every parser is tried and every matching pattern's handlers are called
      in order, each call being the as-written `handle(data)` (`Call`), until the
      first call that throws, whose exception ends the line. */
  ghost function HandleLineThroughHandlers(hs: seq<Handler>, line: string, pathText: string, order: seq<string>,
                                           parsers: map<string, LogParser>, handlers: map<string, seq<nat>>,
                                           nowMillis: int, env: Environment)
    : (r: Dispatched<seq<Handler>, HandleError>)
    requires AllTracked(hs)
    requires Registered(order, parsers, handlers)
    requires PositionsInRange(handlers, hs)
    ensures |r.state| == |hs| && AllTracked(r.state)
    ensures var ds := Deliveries(line, pathText, order, parsers, handlers);
            && r.delivered <= |ds|
            && (r.failure.None? <==> r.delivered == |ds|)
            && (r.failure.Some? ==>
                  var before := Dispatch(hs, ds[..r.delivered], Caller(nowMillis, env));
                  && before.failure.None?
                  && Call(before.state, ds[r.delivered], nowMillis, env) == (r.state, r.failure))
  {
    DispatchKeepsTracked(hs, Deliveries(line, pathText, order, parsers, handlers), nowMillis, env);
    HandleLine(hs, line, pathText, order, parsers, handlers, Caller(nowMillis, env))
  }

  /** The metrics manager registers, on a manager with no handlers yet, only the
      positions of the handlers it built, so every delivery names one of them. */
  lemma {:induction false} BuiltPositionsInRange(metrics: seq<MetricConfig>, tailer: Manager<nat>, deps: Dependencies)
    requires tailer.handlers == map[]
    requires Build(Some(metrics), tailer, deps).Success?
    ensures var b := Build(Some(metrics), tailer, deps).value;
            PositionsInRange(b.tailer.handlers, b.handlers)
  {
    var b := Build(Some(metrics), tailer, deps).value;
    assert b == BuildFrom(metrics, tailer, {}, 0, deps).value;
    forall f, j | f in b.tailer.handlers && 0 <= j < |b.tailer.handlers[f]|
      ensures b.tailer.handlers[f][j] < |b.handlers|
    {
      RegisteredInConfigOrder(metrics, tailer, {}, 0, deps, f);
      PositionsForMembers(metrics, f, 0);
      assert b.tailer.handlers[f] == PositionsFor(metrics, f, 0);
      assert b.tailer.handlers[f][j] in PositionsFor(metrics, f, 0);
    }
  }

  /** The handlers the metrics manager builds all keep the as-written handler's
      invariant, so lines can be delivered to them. */
  lemma BuiltHandlersTracked(metrics: seq<MetricConfig>, tailer: Manager<nat>, deps: Dependencies)
    requires Build(Some(metrics), tailer, deps).Success?
    ensures AllTracked(Build(Some(metrics), tailer, deps).value.handlers)
  {
    var hs := Build(Some(metrics), tailer, deps).value.handlers;
    forall i | 0 <= i < |hs|
      ensures Tracked(hs[i])
    {
      ConsistentIsTracked(hs[i]);
    }
  }
}

=== FILE: tailer.dfy ===
/** `LogTailer`: follows one file and hands every new line to every registered parser,
    then the parsed record to the handlers registered for that parser's format.
    Polling, truncation and rotation belong to the commons-io tailer and are not
    modelled; a tailer is its path, its settings and whether it is still running. */
module Tailer {
  import opened Base
  import opened Paths
  import opened Parser

  /** Delay between two polls of the file, fixed by the tailer manager. */
  const PollDelayMillis: nat := 500

  /** The field that names the file a record came from. */
  const PathField: string := "path"

  datatype LogTailer = LogTailer(path: Path, delayMillis: nat, fromEnd: bool, running: bool)

  /** A tailer as the manager creates and submits it: running, polling every 500 ms. */
  function StartTailer(path: Path, fromEnd: bool): LogTailer {
    LogTailer(path, PollDelayMillis, fromEnd, true)
  }

  /** `stop()`: stops the underlying tailer and changes nothing else. */
  function Stop(t: LogTailer): (r: LogTailer)
    ensures !r.running
    ensures r.(running := t.running) == t
  {
    t.(running := false)
  }

  /** `handle(Exception)`: a read error reported by the underlying tailer is only
      logged; the tailer itself is left exactly as it was. */
  function OnReadError(t: LogTailer, message: string): (r: LogTailer)
    ensures r == t
  {
    t
  }

  /** `data.putIfAbsent("path", filePath.toString())`. */
  function WithPath(data: map<string, string>, pathText: string): (r: map<string, string>)
    ensures r.Keys == data.Keys + {PathField}
    ensures PathField in data ==> r[PathField] == data[PathField]
    ensures PathField !in data ==> r[PathField] == pathText
    ensures forall k :: k in data ==> r[k] == data[k]
  {
    if PathField in data then data else data[PathField := pathText]
  }

  /** One call `handler.handle(record)` made while handling a line matched by `pattern`. */
  datatype Delivery<H> = Delivery(pattern: string, handler: H, record: map<string, string>)

  /** The calls made for one pattern whose parser produced `data`: none when `data` is
      empty, otherwise one per registered handler, in list order, all with the same
      record. */
  function PatternDeliveries<H>(pattern: string, data: map<string, string>, hs: seq<H>, pathText: string)
    : (r: seq<Delivery<H>>)
    ensures data == map[] ==> r == []
    ensures data != map[] ==> |r| == |hs|
    ensures data != map[] ==> forall j :: 0 <= j < |hs| ==> r[j] == Delivery(pattern, hs[j], WithPath(data, pathText))
  {
    if data == map[] then []
    else seq(|hs|, j requires 0 <= j < |hs| => Delivery(pattern, hs[j], WithPath(data, pathText)))
  }

  /** The parsed-and-path-injected record a pattern produces for a line. */
  function RecordFor(parser: LogParser, line: string, pathText: string): map<string, string> {
    WithPath(Parse(parser, line), pathText)
  }

  /** Every pattern of `order` has a parser and a handler list. */
  ghost predicate Listed<H>(order: seq<string>, parsers: map<string, LogParser>, handlers: map<string, seq<H>>) {
    forall i :: 0 <= i < |order| ==> order[i] in parsers && order[i] in handlers
  }

  /** `order` is an iteration order of the parser map: it lists every pattern with a
      parser exactly once, and every such pattern has its handler list. */
  ghost predicate Registered<H>(order: seq<string>, parsers: map<string, LogParser>, handlers: map<string, seq<H>>) {
    && Listed(order, parsers, handlers)
    && Distinct(order)
    && (forall p :: p in parsers ==> p in order)
  }

  /** The handler calls for the patterns of `order`, taken in turn, when none of them
      throws. */
  function CallsFor<H>(line: string, pathText: string, order: seq<string>,
                       parsers: map<string, LogParser>, handlers: map<string, seq<H>>)
    : (r: seq<Delivery<H>>)
    requires Listed(order, parsers, handlers)
    ensures forall d :: d in r ==>
              && d.pattern in order
              && Parse(parsers[d.pattern], line) != map[]
              && d.handler in handlers[d.pattern]
              && d.record == RecordFor(parsers[d.pattern], line, pathText)
              && PathField in d.record
  {
    if |order| == 0 then []
    else
      var p := order[0];
      var head := PatternDeliveries(p, Parse(parsers[p], line), handlers[p], pathText);
      var tail := CallsFor(line, pathText, order[1..], parsers, handlers);
      assert forall d :: d in tail ==> d.pattern in order[1..];
      head + tail
  }

  /** `handle(line)` as the sequence of handler calls it makes when none of them throws:
      every parser is tried once, in the iteration order `order` of the parser map, and
      only parsers that produce a record lead to calls. */
  function Deliveries<H>(line: string, pathText: string, order: seq<string>,
                         parsers: map<string, LogParser>, handlers: map<string, seq<H>>)
    : (r: seq<Delivery<H>>)
    requires Registered(order, parsers, handlers)
    ensures forall d :: d in r ==>
              && d.pattern in parsers
              && Parse(parsers[d.pattern], line) != map[]
              && d.handler in handlers[d.pattern]
              && d.record == RecordFor(parsers[d.pattern], line, pathText)
              && PathField in d.record
  {
    CallsFor(line, pathText, order, parsers, handlers)
  }

  /** The calls for `order` include every handler of every listed pattern that parses
      the line. */
  lemma {:induction false} CallsForInclude<H>(
    line: string, pathText: string, order: seq<string>,
    parsers: map<string, LogParser>, handlers: map<string, seq<H>>, i: nat, j: nat)
    requires Listed(order, parsers, handlers)
    requires i < |order| && j < |handlers[order[i]]|
    requires Parse(parsers[order[i]], line) != map[]
    ensures Delivery(order[i], handlers[order[i]][j], RecordFor(parsers[order[i]], line, pathText))
              in CallsFor(line, pathText, order, parsers, handlers)
    decreases i
  {
    var p := order[0];
    var head := PatternDeliveries(p, Parse(parsers[p], line), handlers[p], pathText);
    var tail := CallsFor(line, pathText, order[1..], parsers, handlers);
    assert CallsFor(line, pathText, order, parsers, handlers) == head + tail;
    if i == 0 {
      assert head[j] in head + tail;
    } else {
      CallsForInclude(line, pathText, order[1..], parsers, handlers, i - 1, j);
      assert order[1..][i - 1] == order[i];
    }
  }

  /** Every parser is tried on every line: for every pattern whose parser turns the
      line into a non-empty record, every handler registered for it receives that
      record. */
  lemma EveryMatchingPatternDelivered<H>(
    line: string, pathText: string, order: seq<string>,
    parsers: map<string, LogParser>, handlers: map<string, seq<H>>, p: string, j: nat)
    requires Registered(order, parsers, handlers)
    requires p in parsers && j < |handlers[p]|
    requires Parse(parsers[p], line) != map[]
    ensures Delivery(p, handlers[p][j], RecordFor(parsers[p], line, pathText))
              in Deliveries(line, pathText, order, parsers, handlers)
  {
    var i :| 0 <= i < |order| && order[i] == p;
    CallsForInclude(line, pathText, order, parsers, handlers, i, j);
  }

  /** The deliveries in `ds` made for pattern `p`, in their original order. */
  function ForPattern<H>(ds: seq<Delivery<H>>, p: string): (r: seq<Delivery<H>>)
    ensures |r| <= |ds|
  {
    if |ds| == 0 then []
    else if ds[0].pattern == p then [ds[0]] + ForPattern(ds[1..], p)
    else ForPattern(ds[1..], p)
  }

  lemma {:induction false} ForPatternAppend<H>(a: seq<Delivery<H>>, b: seq<Delivery<H>>, p: string)
    ensures ForPattern(a + b, p) == ForPattern(a, p) + ForPattern(b, p)
  {
    if |a| == 0 {
      assert a + b == b;
    } else {
      assert (a + b)[1..] == a[1..] + b;
      ForPatternAppend(a[1..], b, p);
    }
  }

  lemma {:induction false} ForPatternAll<H>(ds: seq<Delivery<H>>, p: string)
    requires forall k :: 0 <= k < |ds| ==> ds[k].pattern == p
    ensures ForPattern(ds, p) == ds
  {
    if |ds| > 0 {
      ForPatternAll(ds[1..], p);
    }
  }

  lemma {:induction false} ForPatternNone<H>(ds: seq<Delivery<H>>, p: string)
    requires forall k :: 0 <= k < |ds| ==> ds[k].pattern != p
    ensures ForPattern(ds, p) == []
  {
    if |ds| > 0 {
      ForPatternNone(ds[1..], p);
    }
  }

  /** Over a repetition-free list, the calls made for `p` are `p`'s own deliveries
      when `p` is listed, and none otherwise. */
  lemma {:induction false} CallsForPattern<H>(
    line: string, pathText: string, order: seq<string>,
    parsers: map<string, LogParser>, handlers: map<string, seq<H>>, p: string)
    requires Listed(order, parsers, handlers)
    requires Distinct(order)
    ensures p in order ==>
              ForPattern(CallsFor(line, pathText, order, parsers, handlers), p)
              == PatternDeliveries(p, Parse(parsers[p], line), handlers[p], pathText)
    ensures p !in order ==> ForPattern(CallsFor(line, pathText, order, parsers, handlers), p) == []
  {
    if |order| > 0 {
      var q := order[0];
      var head := PatternDeliveries(q, Parse(parsers[q], line), handlers[q], pathText);
      var tail := CallsFor(line, pathText, order[1..], parsers, handlers);
      assert CallsFor(line, pathText, order, parsers, handlers) == head + tail;
      ForPatternAppend(head, tail, p);
      assert Distinct(order[1..]);
      CallsForPattern(line, pathText, order[1..], parsers, handlers, p);
      if q == p {
        ForPatternAll(head, p);
        assert p !in order[1..];
      } else {
        ForPatternNone(head, p);
        assert p in order ==> p in order[1..];
      }
    }
  }

  /** The handlers of one pattern receive the record in list order, and only once per
      line: the calls made for a pattern with a parser are exactly its own deliveries,
      and a pattern without a parser gets none. */
  lemma HandlersCalledInListOrder<H>(
    line: string, pathText: string, order: seq<string>,
    parsers: map<string, LogParser>, handlers: map<string, seq<H>>, p: string)
    requires Registered(order, parsers, handlers)
    ensures p in parsers ==>
              ForPattern(Deliveries(line, pathText, order, parsers, handlers), p)
              == PatternDeliveries(p, Parse(parsers[p], line), handlers[p], pathText)
    ensures p !in parsers ==> ForPattern(Deliveries(line, pathText, order, parsers, handlers), p) == []
  {
    CallsForPattern(line, pathText, order, parsers, handlers, p);
  }

  /** What delivering a sequence of handler calls did: the state reached, how many
      calls returned normally, and the exception that ended delivery, if any. */
  datatype Dispatched<S, E> = Dispatched(state: S, delivered: nat, failure: Option<E>)

  /** Makes the calls in order. A call yields the state it leaves behind and, when it
      throws, its exception; what a throwing call already changed stays changed.
      There is no per-handler isolation: the first call that throws ends the delivery
      of the whole line, and the exception leaves `handle(line)`. */
  function Dispatch<S, H, E>(s: S, ds: seq<Delivery<H>>, invoke: (S, Delivery<H>) -> (S, Option<E>))
    : (r: Dispatched<S, E>)
    ensures r.delivered <= |ds|
    ensures r.failure.None? <==> r.delivered == |ds|
    decreases |ds|
  {
    if |ds| == 0 then Dispatched(s, 0, None)
    else
      var first := invoke(s, ds[0]);
      if first.1.Some? then Dispatched(first.0, 0, first.1)
      else
        var rest := Dispatch(first.0, ds[1..], invoke);
        Dispatched(rest.state, rest.delivered + 1, rest.failure)
  }

  /** A single call is made: the state is what it leaves, and the line completes
      exactly when it returns normally. */
  lemma DispatchOne<S, H, E>(s: S, d: Delivery<H>, invoke: (S, Delivery<H>) -> (S, Option<E>))
    ensures var (s1, e) := invoke(s, d);
            Dispatch(s, [d], invoke) == Dispatched(s1, if e.None? then 1 else 0, e)
  {
    assert [d][1..] == [];
  }

  /** Calls queued after one that throws are never made: appending more calls after
      a failing prefix changes nothing. */
  lemma {:induction false} NoDeliveryAfterFailure<S, H, E>(
    s: S, ds: seq<Delivery<H>>, more: seq<Delivery<H>>, invoke: (S, Delivery<H>) -> (S, Option<E>))
    requires Dispatch(s, ds, invoke).failure.Some?
    ensures Dispatch(s, ds + more, invoke) == Dispatch(s, ds, invoke)
    decreases |ds|
  {
    assert |ds| > 0;
    assert (ds + more)[0] == ds[0];
    var first := invoke(s, ds[0]);
    if first.1.None? {
      assert (ds + more)[1..] == ds[1..] + more;
      NoDeliveryAfterFailure(first.0, ds[1..], more, invoke);
    }
  }

  /** When every call returns normally, delivery is the composition of the calls. */
  lemma {:induction false} DispatchAppend<S, H, E>(
    s: S, ds: seq<Delivery<H>>, more: seq<Delivery<H>>, invoke: (S, Delivery<H>) -> (S, Option<E>))
    requires Dispatch(s, ds, invoke).failure.None?
    ensures var first := Dispatch(s, ds, invoke);
            var second := Dispatch(first.state, more, invoke);
            Dispatch(s, ds + more, invoke)
              == Dispatched(second.state, first.delivered + second.delivered, second.failure)
    decreases |ds|
  {
    if |ds| == 0 {
      assert ds + more == more;
    } else {
      assert (ds + more)[0] == ds[0];
      assert (ds + more)[1..] == ds[1..] + more;
      DispatchAppend(invoke(s, ds[0]).0, ds[1..], more, invoke);
    }
  }

  /** A line that fails failed at call number `delivered`: every call before it was
      made and returned normally, and that call, made on the state they left, threw
      the exception reported and left the state reported. */
  lemma {:induction false} DispatchFailureAt<S, H, E>(
    s: S, ds: seq<Delivery<H>>, invoke: (S, Delivery<H>) -> (S, Option<E>))
    requires Dispatch(s, ds, invoke).failure.Some?
    ensures var r := Dispatch(s, ds, invoke);
            var before := Dispatch(s, ds[..r.delivered], invoke);
            && before.failure.None?
            && invoke(before.state, ds[r.delivered]) == (r.state, r.failure)
    decreases |ds|
  {
    var r := Dispatch(s, ds, invoke);
    var first := invoke(s, ds[0]);
    if first.1.Some? {
      assert ds[..r.delivered] == [];
    } else {
      var k := r.delivered - 1;
      DispatchFailureAt(first.0, ds[1..], invoke);
      assert ds[..r.delivered] == [ds[0]] + ds[1..][..k];
      DispatchOne(s, ds[0], invoke);
      DispatchAppend(s, [ds[0]], ds[1..][..k], invoke);
      assert ds[1..][k] == ds[r.delivered];
    }
  }

  /** `handle(line)` on a tailer whose file is rendered as `pathText`: the line's
      calls are made in order until one throws. */
  function HandleLine<S, H, E>(s: S, line: string, pathText: string, order: seq<string>,
                               parsers: map<string, LogParser>, handlers: map<string, seq<H>>,
                               invoke: (S, Delivery<H>) -> (S, Option<E>))
    : (r: Dispatched<S, E>)
    requires Registered(order, parsers, handlers)
    ensures var ds := Deliveries(line, pathText, order, parsers, handlers);
            && r.delivered <= |ds|
            && (r.failure.None? <==> r.delivered == |ds|)
            && (r.failure.Some? ==>
                  var before := Dispatch(s, ds[..r.delivered], invoke);
                  && before.failure.None?
                  && invoke(before.state, ds[r.delivered]) == (r.state, r.failure))
  {
    var ds := Deliveries(line, pathText, order, parsers, handlers);
    var r := Dispatch(s, ds, invoke);
    if r.failure.Some? then DispatchFailureAt(s, ds, invoke); r else r
  }
}

=== FILE: tailer_manager.dfy ===
/** `LogTailerManager`: the registry of parsers and handlers per match format, and the
    map of tracked files, driven by a periodic scan and a periodic cleanup.  The file
    system is a snapshot, the clock an explicit argument, and the glob matcher an
    oracle; the scheduler, the thread pool and the concurrent map are not modelled,
    each operation being one sequential step. */
module TailerManager {
  import opened Base
  import opened Config
  import opened Paths
  import opened Parser
  import opened Tailer

  const MillisPerSecond: int := 1000

  datatype Manager<H> = Manager(
    config: AppConfig,
    parsers: map<string, LogParser>,
    handlers: map<string, seq<H>>,
    activeTailers: map<Path, LogTailer>)

  /** The registry invariant: a parser and a non-empty handler list for exactly the
      same match formats. */
  ghost predicate Valid<H>(m: Manager<H>) {
    && m.parsers.Keys == m.handlers.Keys
    && forall f :: f in m.handlers ==> |m.handlers[f]| > 0
  }

  /** `new LogTailerManager(appConfig)`. */
  function NewManager<H>(config: AppConfig): (r: Manager<H>)
    ensures Valid(r)
    ensures r.activeTailers == map[] && r.config == config
  {
    Manager(config, map[], map[], map[])
  }

  // ---------------------------------------------------------------- inactivity

  /** `isFileInactive`: a path whose modification time cannot be read (it no longer
      exists, or the read fails) is inactive; otherwise it is inactive when the time
      elapsed since it was modified, computed in Java `long` arithmetic, strictly
      exceeds the timeout. */
  predicate IsFileInactive(fs: FileSystem, nowMillis: Int64, timeoutSeconds: Int32, p: Path) {
    || p !in fs
    || fs[p].mtime.None?
    || WrapInt64(nowMillis - fs[p].mtime.value) > timeoutSeconds * MillisPerSecond
  }

  /** For clock readings and modification times that are not negative the `long`
      subtraction cannot wrap, and the predicate is the strict comparison of the
      elapsed milliseconds with `timeout × 1000`, which itself never overflows a `long`
      for an `int` timeout.  An elapsed time equal to the threshold is still active. */
  lemma InactiveIffElapsedExceedsTimeout(fs: FileSystem, nowMillis: Int64, timeoutSeconds: Int32, p: Path)
    requires p in fs && fs[p].mtime.Some?
    requires 0 <= nowMillis && 0 <= fs[p].mtime.value
    ensures Int64Min <= timeoutSeconds * MillisPerSecond <= Int64Max
    ensures (IsFileInactive(fs, nowMillis, timeoutSeconds, p)
             <==> nowMillis - fs[p].mtime.value > timeoutSeconds * MillisPerSecond)
  {
    var mt := fs[p].mtime.value;
    assert Int64Min <= nowMillis - mt <= Int64Max;
  }

  /** With the default one-hour timeout a file modified exactly 3600 s ago is still
      tailed, and one modified 3600.001 s ago is not. */
  lemma DefaultTimeoutBoundary(fs: FileSystem, p: Path, mtime: Int64, nowMillis: Int64)
    requires p in fs && fs[p].mtime == Some(mtime)
    requires 0 <= mtime && 0 <= nowMillis
    ensures nowMillis - mtime == 3_600_000 ==>
              !IsFileInactive(fs, nowMillis, NewAppConfig().fileInactivityTimeoutSeconds, p)
    ensures nowMillis - mtime == 3_600_001 ==>
              IsFileInactive(fs, nowMillis, NewAppConfig().fileInactivityTimeoutSeconds, p)
  {
    InactiveIffElapsedExceedsTimeout(fs, nowMillis, DefaultInactivityTimeoutSeconds, p);
  }

  // ---------------------------------------------------------------------- scan

  /** The oracles a scan needs: parsing the configured path string, and the glob
      matcher built from a pattern and applied to a whole walked path. */
  datatype ScanOracles = ScanOracles(parsePath: string -> Path, globMatches: (string, Path) -> bool)

  /** Where the walk starts: the nearest existing ancestor of the configured path's parent. */
  function WalkRoot(fs: FileSystem, configured: Path): Option<Path> {
    NearestExisting(fs, Parent(configured))
  }

  /** A walked path the scan starts a tailer for, unless it is already tracked: a
      regular file below the walk root that the glob accepts and that is not inactive.
      The glob is the configured path's last element, matched against the whole path. */
  ghost predicate Eligible(fs: FileSystem, nowMillis: Int64, timeoutSeconds: Int32,
                           oracles: ScanOracles, configured: Path, root: Path, p: Path)
    requires |configured.names| > 0
  {
    && p in fs
    && Under(p, root)
    && fs[p].isRegular
    && oracles.globMatches(FileName(configured).value, p)
    && !IsFileInactive(fs, nowMillis, timeoutSeconds, p)
  }

  /** `findAndTailFiles()`. With no existing ancestor, or when the walk itself fails,
      nothing changes. Otherwise every eligible untracked path gets a freshly started
      tailer; tracked paths keep their tailer, and nothing is removed. */
  function FindAndTailFiles<H>(m: Manager<H>, fs: FileSystem, walkFails: bool, nowMillis: Int64,
                               oracles: ScanOracles): (r: Manager<H>)
    requires m.config.path.Some?
    ensures r.config == m.config && r.parsers == m.parsers && r.handlers == m.handlers
    ensures var configured := oracles.parsePath(m.config.path.value);
            WalkRoot(fs, configured).None? || walkFails ==> r == m
    ensures m.activeTailers.Keys <= r.activeTailers.Keys
    ensures forall p :: p in m.activeTailers ==> r.activeTailers[p] == m.activeTailers[p]
    ensures var configured := oracles.parsePath(m.config.path.value);
            var root := WalkRoot(fs, configured);
            forall p :: p in r.activeTailers && p !in m.activeTailers ==>
              && root.Some? && |configured.names| > 0
              && Eligible(fs, nowMillis, m.config.fileInactivityTimeoutSeconds, oracles, configured, root.value, p)
              && r.activeTailers[p] == StartTailer(p, m.config.tailFromEnd)
    ensures var configured := oracles.parsePath(m.config.path.value);
            var root := WalkRoot(fs, configured);
            root.Some? && !walkFails ==>
              |configured.names| > 0 &&
              forall p :: Eligible(fs, nowMillis, m.config.fileInactivityTimeoutSeconds, oracles, configured, root.value, p)
                          ==> p in r.activeTailers
  {
    var configured := oracles.parsePath(m.config.path.value);
    match WalkRoot(fs, configured)
    case None => m
    case Some(root) =>
      if walkFails then m
      else
        assert |configured.names| > 0;
        var pattern := FileName(configured).value;
        var timeout := m.config.fileInactivityTimeoutSeconds;
        var started := map p | p in fs && Under(p, root) && fs[p].isRegular
                                && oracles.globMatches(pattern, p)
                                && !IsFileInactive(fs, nowMillis, timeout, p)
                                && p !in m.activeTailers
                          :: StartTailer(p, m.config.tailFromEnd);
        m.(activeTailers := m.activeTailers + started)
  }

  /** Repeated scans over an unchanged file system never add a second tailer: a
      second scan changes nothing. */
  lemma ScanIdempotent<H>(m: Manager<H>, fs: FileSystem, walkFails: bool, nowMillis: Int64, oracles: ScanOracles)
    requires m.config.path.Some?
    ensures var once := FindAndTailFiles(m, fs, walkFails, nowMillis, oracles);
            FindAndTailFiles(once, fs, walkFails, nowMillis, oracles) == once
  {
    var once := FindAndTailFiles(m, fs, walkFails, nowMillis, oracles);
    var twice := FindAndTailFiles(once, fs, walkFails, nowMillis, oracles);
    assert twice.activeTailers.Keys == once.activeTailers.Keys;
  }

  /** A file that is already inactive when the scan sees it is never started. */
  lemma InactiveFileNeverStarted<H>(m: Manager<H>, fs: FileSystem, walkFails: bool, nowMillis: Int64,
                                    oracles: ScanOracles, p: Path)
    requires m.config.path.Some?
    requires p !in m.activeTailers
    requires IsFileInactive(fs, nowMillis, m.config.fileInactivityTimeoutSeconds, p)
    ensures p !in FindAndTailFiles(m, fs, walkFails, nowMillis, oracles).activeTailers
  {
  }

  // ------------------------------------------------------------------- cleanup

  /** The result of a cleanup: the manager afterwards, and the tailers it stopped,
      each already stopped, keyed by their path (so each is stopped once). */
  datatype Cleanup<H> = Cleanup(manager: Manager<H>, stopped: map<Path, LogTailer>)

  /** `cleanupInactiveTailers()`. */
  function CleanupInactiveTailers<H>(m: Manager<H>, fs: FileSystem, nowMillis: Int64): (r: Cleanup<H>)
    ensures r.manager.config == m.config && r.manager.parsers == m.parsers && r.manager.handlers == m.handlers
    ensures forall p :: p in r.manager.activeTailers <==>
              p in m.activeTailers && !IsFileInactive(fs, nowMillis, m.config.fileInactivityTimeoutSeconds, p)
    ensures forall p :: p in r.manager.activeTailers ==> r.manager.activeTailers[p] == m.activeTailers[p]
    ensures forall p :: p in r.stopped <==>
              p in m.activeTailers && IsFileInactive(fs, nowMillis, m.config.fileInactivityTimeoutSeconds, p)
    ensures forall p :: p in r.stopped ==> r.stopped[p] == Stop(m.activeTailers[p])
  {
    var timeout := m.config.fileInactivityTimeoutSeconds;
    var kept := map p | p in m.activeTailers && !IsFileInactive(fs, nowMillis, timeout, p) :: m.activeTailers[p];
    var stopped := map p | p in m.activeTailers && IsFileInactive(fs, nowMillis, timeout, p) :: Stop(m.activeTailers[p]);
    Cleanup(m.(activeTailers := kept), stopped)
  }

  /** Cleanup splits the tracked paths in two: those kept (untouched and not stopped)
      and those removed (each stopped); nothing else is stopped or kept. */
  lemma CleanupPartitionsTracked<H>(m: Manager<H>, fs: FileSystem, nowMillis: Int64)
    ensures var c := CleanupInactiveTailers(m, fs, nowMillis);
            && c.manager.activeTailers.Keys + c.stopped.Keys == m.activeTailers.Keys
            && c.manager.activeTailers.Keys !! c.stopped.Keys
            && |c.manager.activeTailers| + |c.stopped| == |m.activeTailers|
  {
    var c := CleanupInactiveTailers(m, fs, nowMillis);
    CleanupKeys(m, fs, nowMillis);
    DisjointUnionSize(c.manager.activeTailers.Keys, c.stopped.Keys);
  }

  lemma CleanupKeys<H>(m: Manager<H>, fs: FileSystem, nowMillis: Int64)
    ensures var c := CleanupInactiveTailers(m, fs, nowMillis);
            && c.manager.activeTailers.Keys + c.stopped.Keys == m.activeTailers.Keys
            && c.manager.activeTailers.Keys !! c.stopped.Keys
  {
  }

  lemma DisjointUnionSize(a: set<Path>, b: set<Path>)
    requires a !! b
    ensures |a + b| == |a| + |b|
  {
  }

  /** Every tracked file is active at `nowMillis`. */
  ghost predicate AllTrackedActive<H>(m: Manager<H>, fs: FileSystem, nowMillis: Int64) {
    forall p :: p in m.activeTailers ==> !IsFileInactive(fs, nowMillis, m.config.fileInactivityTimeoutSeconds, p)
  }

  /** A cleanup followed by a scan at the same instant leaves only active files
      tracked: cleanup removes every inactive one and the scan adds none. */
  lemma CleanupThenScanTracksOnlyActive<H>(m: Manager<H>, fs: FileSystem, walkFails: bool,
                                           nowMillis: Int64, oracles: ScanOracles)
    requires m.config.path.Some?
    ensures var c := CleanupInactiveTailers(m, fs, nowMillis).manager;
            AllTrackedActive(FindAndTailFiles(c, fs, walkFails, nowMillis, oracles), fs, nowMillis)
  {
    var c := CleanupInactiveTailers(m, fs, nowMillis).manager;
    var s := FindAndTailFiles(c, fs, walkFails, nowMillis, oracles);
    var configured := oracles.parsePath(m.config.path.value);
    forall p | p in s.activeTailers
      ensures !IsFileInactive(fs, nowMillis, m.config.fileInactivityTimeoutSeconds, p)
    {
      if p !in c.activeTailers {
        var root := WalkRoot(fs, configured);
        assert Eligible(fs, nowMillis, m.config.fileInactivityTimeoutSeconds, oracles, configured, root.value, p);
      }
    }
  }

  // ------------------------------------------------------------------ register

  /** `register(matchFormat, handler)`. The parser for a format is compiled on its
      first registration only; a compile failure throws before the handler list is
      touched, so the manager is left as it was. The handler is appended to the
      format's list. */
  function Register<H>(m: Manager<H>, format: string, handler: H, compile: Compiler)
    : (r: Result<Manager<H>, ParserError>)
    ensures r.Failure? <==> format !in m.parsers && NewParser(format, m.config.patterns, compile).Failure?
    ensures r.Success? ==> r.value.config == m.config && r.value.activeTailers == m.activeTailers
    ensures r.Success? && format in m.parsers ==> r.value.parsers == m.parsers
    ensures r.Success? && format !in m.parsers ==>
              r.value.parsers == m.parsers[format := NewParser(format, m.config.patterns, compile).value]
    ensures r.Success? ==>
              && r.value.handlers.Keys == m.handlers.Keys + {format}
              && r.value.handlers[format]
                 == (if format in m.handlers then m.handlers[format] else []) + [handler]
              && forall f :: f in m.handlers && f != format ==> r.value.handlers[f] == m.handlers[f]
    ensures Valid(m) && r.Success? ==> Valid(r.value)
  {
    var parsers :-
      if format in m.parsers then Success(m.parsers)
      else
        var p :- NewParser(format, m.config.patterns, compile);
        Success(m.parsers[format := p]);
    var list := if format in m.handlers then m.handlers[format] else [];
    Success(m.(parsers := parsers, handlers := m.handlers[format := list + [handler]]))
  }

  /** Two registrations of one format: the first creates the parser and the second
      keeps it, and both handlers are listed in registration order. */
  lemma RegisterTwiceSharesParser<H>(m: Manager<H>, format: string, h1: H, h2: H, compile: Compiler)
    requires Valid(m) && format !in m.parsers
    requires Register(m, format, h1, compile).Success?
    ensures var m1 := Register(m, format, h1, compile).value;
            var r2 := Register(m1, format, h2, compile);
            && r2.Success?
            && r2.value.parsers[format] == m1.parsers[format]
            && r2.value.handlers[format] == [h1, h2]
  {
  }
}
